=== FILE: README.md ===
# A Dafny model of portable-shell

portable-shell is a small C command shell for hosts and microcontrollers. It
reads bytes one at a time, edits a line in place with VT100 echo, keeps a
history ring, splits a submitted line into at most 16 words and runs the
command that the first word names. The built-in commands are `help`,
`clear`/`cls`, `get`, `set` and `edit`. Commands and typed parameters are
kept in two head-first linked lists.

This project models that core as pure Dafny functions over an immutable
`Shell` record. It proves what each operation does and how the operations
relate to each other.

Modules, in dependency order:

- `Wrappers`: `Option` and two small helpers.
- `Text`: key codes, `%d` formatting and the C library's `atoi`.
- `Vt100`: the emitters of src/vt100.c, each a function from the
  `vt100_enabled` flag to the bytes written. Their partner is `Decode`, an
  ECMA-48 control-sequence reader; it shows what a terminal makes of each
  emitter's output.
- `Registry`: the command and parameter lists, as one generic sequence read
  head first. Registering prepends, so a newer entry shadows an older one
  with the same name.
- `Tokenizer`: `ps_parse_args`. `ParseArgs` is a loop written as `strtok`
  scans the line. It is proved equal to `Args`, a recursive reference
  definition over every maximal run of non-delimiters.
- `History`: `ps_add_to_history` and the Up/Down browse position.
- `LineBuffer`: `cmd_buffer`, `cmd_len` and `cmd_pos`, with the three
  `memmove` edits.
- `Parameters`: the four parameter types and the `get`/`set` built-ins.
- `Shell`:
  - `ps_create` and the register/unregister API;
  - the prompt, the line redraw and the `help` listing;
  - `ps_execute_command` with built-in dispatch.
- `Editor`:
  - `ps_process_char` and `ps_handle_escape_sequence`. The bytes that
    `read_char` would deliver next are passed as a `pending` sequence.
  - `Feed`, the read loop of `ps_run`, over a whole input stream.
- `CommandLines` and `Scenarios`: worked examples.
  - `set x 10` and then `get x` print `x = 10`.
  - Bool coercion.
  - A shadowed command name.
  - An unknown command typed at the prompt and submitted.

The program's I/O callbacks become values:
- Input is a byte sequence.
- Output is the string of bytes written.
- A callback supplied by the embedding program is an opaque `Foreign` id.
  Invoking it is recorded as a `Call` with its argument vector.

Enter commits a non-empty line to the history before the
line is looked up, so an unknown command is recorded as well
(src/portable_shell.c:168-171).

## Model

| member | source | states |
|---|---|---|
| Text.AtoiOfDecimal | src/portable_shell.c:582-616 | every 32-bit value printed by `get` with `%d` is read back unchanged by the `atoi` in `set` |
| Text.Atoi | src/portable_shell.c:616 | the value `set` stores in an Int is always a 32-bit `int`; what that value is, is stated by `AtoiOfDigits`, `AtoiOfDecimal` and `AtoiWithoutDigits` |
| Text.AtoiOfDigits | src/portable_shell.c:616 | a digit run, with or without a leading minus sign, whose value fits an `int` converts to that value |
| Text.AtoiWithoutDigits | src/portable_shell.c:616 | text whose first byte after the white space and optional sign is not a digit (`abc12`, `-x5`, the empty text) converts to 0 |
| Text.Decimal | src/portable_shell.c:582 | the `%d` text of an integer is at least one byte: a minus sign exactly for a negative value, then the digits of its magnitude; `DigitsValueOfDigits` and `AtoiOfDecimal` read it back |
| Text.DigitsValueOfDigits | src/portable_shell.c:582 | the decimal digits `%d` writes for a natural number have that number as their value |
| Text.WrapInt32 | src/portable_shell.c:616 | narrowing to a C `int` gives a 32-bit value congruent to the input modulo 2^32, and an in-range value is unchanged |
| Text.ClampLong | src/portable_shell.c:616 | `strtol` saturates at the 64-bit `long` bounds and leaves in-range values alone |
| Vt100.ClearScreen | src/vt100.c:6-9 | writes nothing when VT100 output is off; `EnabledEmittersDecode` gives ED 2 when it is on |
| Vt100.ClearLine | src/vt100.c:11-14 | writes nothing when VT100 output is off; EL 2 when on |
| Vt100.CursorHome | src/vt100.c:16-19 | writes nothing when VT100 output is off; CUP with no parameters when on |
| Vt100.CursorMove | src/vt100.c:21-26 | writes nothing when VT100 output is off; CHA with the 1-based column col+1 when on |
| Vt100.CursorLeft | src/vt100.c:28-33 | writes nothing when VT100 output is off; CUB n when on |
| Vt100.CursorRight | src/vt100.c:35-40 | writes nothing when VT100 output is off; CUF n when on |
| Vt100.Color | src/vt100.c:42-51 | writes nothing when VT100 output is off; SGR fg;bg for a non-negative background, SGR fg otherwise |
| Vt100.Reset | src/vt100.c:53-56 | writes nothing when VT100 output is off; SGR 0 when on |
| Vt100.Bell | src/vt100.c:58-61 | the bell is the single BEL byte, whatever the VT100 flag |
| Vt100.EnabledEmittersDecode | src/vt100.c:6-56 | with VT100 on, each emitter writes exactly one control sequence, which a terminal reads as the ECMA-48 function and parameters the code intends |
| Vt100.DecodeCsi | src/vt100.c:21-51 | an ESC `[` sequence formatted with `%d` parameters separated by `;` reads back as those parameters and that final byte |
| Vt100.FixedSequences | src/vt100.c:6-56 | the constant sequences (ED 2, EL 2, CUP, SGR 0) are instances of the general CSI form |
| LineBuffer.Load | src/portable_shell.c:236-238 | a recalled entry becomes the line with the cursor after its last byte |
| LineBuffer.Insert | src/portable_shell.c:204-215 | a printable byte lands at the cursor, the bytes before it stay, the tail moves one place right and the cursor moves past the new byte |
| LineBuffer.RemoveBefore | src/portable_shell.c:181-187 | Backspace removes the byte before the cursor, shifts the tail left and moves the cursor back one place |
| LineBuffer.RemoveAt | src/portable_shell.c:290-294 | Delete removes the byte under the cursor, shifts the tail left and keeps the cursor |
| LineBuffer.RemoveBeforeUndoesInsert | src/portable_shell.c:181-215 | Backspace right after typing a byte restores the line exactly |
| LineBuffer.RemoveAtUndoesInsert | src/portable_shell.c:204-294 | typing a byte, going back over it and pressing Delete restores the line |
| LineBuffer.InsertAtEndAppends | src/portable_shell.c:204-215 | typing at the end of the line appends the byte |
| History.Empty | src/portable_shell.c:65-73 | a new history is valid and empty, with the configured capacity |
| History.Commit | src/portable_shell.c:320-343 | no change when history is off, the line is empty or repeats the newest entry. Otherwise the line is appended, the oldest entry is dropped when full, and browsing resets. The result is valid and holds only old entries and the line |
| History.CommitWithRoom | src/portable_shell.c:339-341 | with room left, a commit appends the line |
| History.CommitWhenFull | src/portable_shell.c:332-341 | into a full history, a commit drops the oldest entry and appends |
| History.CapacityTwoKeepsNewest | src/portable_shell.c:320-343 | with capacity 2, committing a, b, c keeps b, c |
| History.RepeatStoredOnce | src/portable_shell.c:325-329 | committing one line twice stores it once |
| History.Older | src/portable_shell.c:231-242 | Up moves one entry further back and loads it; at the oldest entry nothing changes; the entries never change |
| History.Newer | src/portable_shell.c:244-261 | Down moves one entry forward, loading the empty line when leaving the newest; nothing happens when not browsing |
| History.NewerUndoesOlder | src/portable_shell.c:231-261 | Down after Up restores the browse position and reloads the line it stands for |
| History.OlderUndoesNewer | src/portable_shell.c:231-261 | Up after Down restores the browse position and reloads the line it stands for |
| History.OlderTimes | src/portable_shell.c:231-242 | any number of Up presses keeps the history valid with the same entries |
| History.OlderSaturates | src/portable_shell.c:232-233 | after k presses of Up the position is min(pos + k, count): browsing stops at the oldest entry and never wraps |
| Tokenizer.Args | src/portable_shell.c:357-362 | the argument vector is the first min(count, 16) tokens of the line, in order |
| Tokenizer.TokensPartitionLine | src/portable_shell.c:357-362 | tokens are non-empty, contain no space or tab, and together are exactly the line's other characters, in order |
| Tokenizer.TokensOfPaddedWord | src/portable_shell.c:357-362 | a word with leading spaces or tabs is the line's only token |
| Tokenizer.TokensOfWordThenSpace | src/portable_shell.c:357-361 | a word followed by a space is the first token, and the rest of the line gives the others |
| Tokenizer.WordEnd | src/portable_shell.c:357-361 | the scan from a word character stops at the first space or tab or at the end, past only word characters |
| Tokenizer.ScanStops | src/portable_shell.c:358 | when the scan reaches the end of the line or 16 tokens, the tokens kept are `Args` of the line |
| Tokenizer.ParseArgs | src/portable_shell.c:346-366 | the `strtok` loop returns exactly `Args`: the first 16 maximal runs without space or tab |
| Registry.IndexOf | src/portable_shell.c:488-495 | the list walk stops at the first entry with the name, or at the end when there is none |
| Registry.Lookup | src/portable_shell.c:486-498 | the result is absent exactly when no entry has the name; otherwise it is the value of the first entry with the name |
| Registry.Register | src/portable_shell.c:405-418 | the new entry heads the list and is what lookup of its name finds; lookups of other names are unchanged |
| Registry.Unregister | src/portable_shell.c:421-442 | status 0 exactly when the name is present. Then only the first entry with the name is unlinked and the order of the rest is kept. Otherwise status -1 and the list is unchanged |
| Registry.Update | src/portable_shell.c:614-630 | a write through the parameter that lookup finds: only that entry changes, so every other name looks up as before |
| Registry.UnregisterUndoesRegister | src/portable_shell.c:405-442 | unregistering right after registering restores the list exactly, with status 0 |
| Registry.ShadowThenExpose | src/portable_shell.c:405-442 | of two registrations of one name, lookup finds the newer, and after one unregistration the older again |
| Parameters.Assign | src/portable_shell.c:614-630 | `set`'s store keeps the type and the storage size. An Int gets `atoi` of the text, and a String gets the text cut to max_size - 1 bytes. A Bool becomes true exactly for `true`, `1` or `yes` |
| Parameters.Format | src/portable_shell.c:580-594 | what `get` prints after `<name> = ` for each type; it has no contract of its own, and `AssignFormatRoundTrip` states that `set` reads the printed text back to the same value |
| Parameters.AssignFormatRoundTrip | src/portable_shell.c:580-630 | setting a parameter to the text `get` shows for a value of its type stores that value |
| Parameters.Get | src/portable_shell.c:563-598 | status 0 exactly when there is a name argument and it is registered; then `<name> = <value>` of the first such parameter is printed. Otherwise the usage or not-found message is printed with status -1 |
| Parameters.Set | src/portable_shell.c:601-638 | status 0 exactly when there are three words and the name is registered. Then the first such parameter gets `Assign` of the text, the others are unchanged, and `Set <name> = <text>` is echoed. Otherwise the usage or not-found message is printed with status -1 and nothing changes |
| Parameters.SetThenGet | src/portable_shell.c:563-638 | `set n t` then `get n` prints the value `set` stored |
| Parameters.SetThenGetInt | src/portable_shell.c:563-638 | for an Int, `set n <%d of v>` then `get n` prints `%d` of v again |
| Shell.Create | src/portable_shell.c:32-87 | without a configuration: history 10, VT100 on, prompt `$ `. A missing prompt defaults to `$ `. The line, history and parameters start empty, with the six built-ins registered in the code's order |
| Shell.BuiltinNamesDistinct | src/portable_shell.c:76-81 | the built-in command names differ from one another |
| Shell.BuiltinsRegistered | src/portable_shell.c:76-81 | `clear` and `cls` share one callback, `help` is found, and `edit`, registered last, heads the table |
| Shell.RegisterCommand | src/portable_shell.c:405-418 | the new command is prepended to the table (`Registry.Register`), so it is what its name dispatches to and a command it shadows stays behind it; other names and the rest of the shell are unchanged |
| Shell.UnregisterCommand | src/portable_shell.c:421-442 | the table becomes `Registry.Unregister`'s: only the first command with the name is unlinked and the rest keep their order. Status 0 exactly when the name was registered; otherwise nothing changes |
| Shell.UnregisterCommandUndoesRegister | src/portable_shell.c:405-442 | unregistering a command right after registering it gives back the shell with status 0, so a shadowed command of that name is dispatched to again |
| Shell.RegisterParameter | src/portable_shell.c:445-459 | the new parameter is prepended to the list (`Registry.Register`), so it is what its name looks up to and a parameter it shadows stays behind it; other names and the rest of the shell are unchanged |
| Shell.UnregisterParameter | src/portable_shell.c:462-483 | the list becomes `Registry.Unregister`'s: only the first parameter with the name is unlinked and the rest keep their order. Status 0 exactly when the name was registered; otherwise nothing changes |
| Shell.UnregisterParameterUndoesRegister | src/portable_shell.c:445-483 | unregistering a parameter right after registering it gives back the shell with status 0, so a shadowed parameter of that name is found again |
| Shell.Record | src/portable_shell.c:168-170 | committing the submitted line keeps every history entry a line the buffer can hold again |
| Shell.PromptText | src/portable_shell.c:520-530 | with VT100 off the prompt alone; with it on, more than the prompt |
| Shell.PromptIsGreen | src/portable_shell.c:520-530 | with VT100 on, the prompt sits between SGR 32 and SGR 0 |
| Shell.Redraw | src/portable_shell.c:303-317 | the bytes of a line redraw; it has no contract of its own, and `RedrawPlacesCursor` states what a terminal shows after them |
| Shell.RedrawPlacesCursor | src/portable_shell.c:303-317 | a redraw is a carriage return, an erase of the line, the prompt and the whole line. It ends with the terminal cursor at 1-based column \|prompt\| + cursor + 1; with VT100 off only the carriage return, prompt and line remain |
| Shell.HelpListing | src/portable_shell.c:533-551 | the text `help` prints; it has no contract of its own, and `HelpListsNewestFirst` and `HelpListsEveryCommand` state its order and completeness |
| Shell.HelpListsNewestFirst | src/portable_shell.c:533-551 | `help` lists the most recently registered command first, then the listing as it was before |
| Shell.HelpLinesSplit | src/portable_shell.c:538-548 | the listing of a table is the listing of any prefix followed by that of the rest |
| Shell.HelpListsEveryCommand | src/portable_shell.c:538-548 | every registered command, shadowed ones included, has its line in the listing, between the newer commands' lines and the older ones' |
| Shell.Invoke | src/portable_shell.c:533-647 | each built-in does what its C function does: `help` prints `HelpListing` of the command table, `clear`/`cls` write clear-screen then cursor-home, `get` prints `Get`'s text with its status, `set` stores and prints what `Set` does, and `edit` with no parameters prints `No parameters to edit` with -1; all of these return a status and hand nothing off. Only `set` changes the shell, and only its parameters. A foreign callback, and `edit` when parameters exist, is handed off with the whole argument vector and prints nothing |
| Shell.Execute | src/portable_shell.c:378-402 | a blank line returns -1 with no output. An unknown first word prints `Command not found: <word>` and returns -1. Otherwise the newest command of that name runs with the words. The history, line and commands are untouched |
| Shell.DispatchRunsNewest | src/portable_shell.c:386-395 | with a name registered twice, dispatch runs only the newer callback |
| Editor.CancelLine | src/portable_shell.c:148-155 | Ctrl-C prints `^C` and a fresh prompt and empties the line; history and registries are untouched |
| Editor.Repaint | src/portable_shell.c:157-162 | Ctrl-L clears the screen and prints the prompt and the line, changing no state |
| Editor.Submit | src/portable_shell.c:164-177 | Enter prints a newline and, for a non-empty line, commits it, then dispatches it and empties the line; a fresh prompt follows. An empty line changes nothing |
| Editor.Rubout | src/portable_shell.c:179-190 | Backspace removes the byte before the cursor and redraws; at the start of the line nothing happens |
| Editor.Ring | src/portable_shell.c:192-195 | Tab rings the bell and changes nothing |
| Editor.TypeChar | src/portable_shell.c:202-219 | a printable byte is inserted at the cursor and the line redrawn while fewer than 255 bytes are held; otherwise it is dropped silently |
| Editor.RecallOlder | src/portable_shell.c:231-242 | Up loads the next older entry with the cursor at its end and redraws; at the oldest entry nothing happens |
| Editor.RecallNewer | src/portable_shell.c:244-261 | Down loads the next newer entry, or the empty line when leaving the newest, and redraws; nothing happens when not browsing |
| Editor.MoveRight | src/portable_shell.c:263-268 | Right moves the cursor one place and the terminal cursor with it, unless at the end |
| Editor.MoveLeft | src/portable_shell.c:270-275 | Left moves the cursor one place back and the terminal cursor with it, unless at the start |
| Editor.MoveHome | src/portable_shell.c:277-280 | Home puts the cursor at the start and the terminal cursor just after the prompt |
| Editor.MoveEnd | src/portable_shell.c:282-285 | End puts the cursor after the last byte and the terminal cursor with it |
| Editor.DeleteForward | src/portable_shell.c:287-298 | Delete removes the byte under the cursor and redraws; at the end of the line nothing happens |
| Editor.Escape | src/portable_shell.c:224-300 | ESC `[` then `A`, `B`, `C`, `D`, `H` or `F` runs Up (`RecallOlder`), Down (`RecallNewer`), Right, Left, Home or End and reads two bytes; ESC `[3~` runs Delete (`DeleteForward`) and reads three. An escape sequence never runs a command or touches the registries or history entries, and reads at most three bytes. A byte other than `[`, an unknown key after `[`, and a non-`~` after `[3` each end it with no effect; a sequence cut short by the end of input does nothing |
| Editor.Key | src/portable_shell.c:143-221 | each key runs its handler: Ctrl-C `CancelLine`, Ctrl-L `Repaint`, CR or LF `Submit`, 0x7F or 0x08 `Rubout`, Tab `Ring`, a printable byte `TypeChar`. Only Enter or newline can dispatch or change the parameters or the history, and every other byte leaves the history exactly as it was. A byte that is neither a key nor printable does nothing, and a printable one is inserted while there is room |
| Editor.ProcessChar | src/portable_shell.c:143-221 | one byte keeps the shell valid and its configuration and commands fixed; only ESC reads further bytes, between one and three |
| Editor.Feed | src/portable_shell.c:127-132 | the read loop keeps the buffer and history invariants after every byte and never changes the configuration or the command table |
| Editor.FeedConcat | src/portable_shell.c:127-132 | input splits after any prefix without an ESC byte: feeding a + b, where a holds no ESC, is feeding a, then b from where a left the shell |
| Editor.FeedConcatParts | src/portable_shell.c:127-132 | the same split after a prefix without an ESC byte, stated for the shell, the output and the hand-offs separately |
| Editor.FeedHead | src/portable_shell.c:127-132 | a stream is its first byte, with the bytes it reads, followed by the rest |
| Editor.PlainHead | src/portable_shell.c:127-132 | a byte other than ESC is handled on its own and the rest of the stream follows |
| Editor.PlainIgnoresPending | src/portable_shell.c:147-219 | a byte other than ESC does not look at the input after it |
| Editor.FeedOne | src/portable_shell.c:127-132 | a single byte other than ESC is that key's effect |
| Editor.TypeAtEnd | src/portable_shell.c:204-216 | a printable byte typed at the end of a line with room is appended and nothing else changes |
| Editor.FeedTypesText | src/portable_shell.c:202-219 | typing printable bytes at the end of a line with room appends them all with the cursor after them; nothing else changes and nothing runs |
| Editor.StepWithoutEnter | src/portable_shell.c:143-221 | a byte from input without Enter or newline runs nothing and changes only the line and browse position |
| Editor.FeedWithoutEnter | src/portable_shell.c:127-132 | input without Enter or newline runs nothing and changes only the line and the browse position |
| Editor.EscapeIgnoresRest | src/portable_shell.c:228-285 | an arrow, Home or End sequence reads exactly its own bytes, whatever follows |
| Editor.EscapeStep | src/portable_shell.c:228-285 | such a sequence followed by more input is that key, then the rest of the stream |
| Editor.EscapeOne | src/portable_shell.c:228-285 | such a sequence alone is that key's effect |
| Editor.EscapeTwice | src/portable_shell.c:228-285 | two such sequences in a row act one after the other |
| Editor.UpRecalls | src/portable_shell.c:231-242 | ESC `[` `A`, while an older entry exists, loads it with the cursor at its end, moves the position back one and redraws |
| Editor.UpArrowRecalls | src/portable_shell.c:231-242 | the same for the three input bytes of the Up arrow |
| Editor.OlderThenNewer | src/portable_shell.c:231-261 | Up then Down restores the history and reloads the line the position stood for |
| Editor.UpThenDownRestores | src/portable_shell.c:231-261 | the same for the input bytes of Up and Down |
| Editor.LeftThenRight | src/portable_shell.c:263-275 | Left then Right, away from the start of the line, gives back the same shell |
| Editor.LeftThenRightRestores | src/portable_shell.c:263-275 | the same for the input bytes of Left and Right |
| Editor.RuboutAfterType | src/portable_shell.c:179-219 | a typed byte followed by Backspace gives back the same shell |
| Editor.BackspaceUndoesTyping | src/portable_shell.c:179-219 | the same for the two input bytes |
| Editor.CancelDiscardsLine | src/portable_shell.c:148-155 | Ctrl-C after typing throws the line away and leaves everything else as it was |
| Editor.TypeAndSubmit | src/portable_shell.c:164-177 | a line typed at an empty prompt and submitted is committed, then dispatched, and the line is emptied; the output is the echo, a newline, the command's output and a prompt |
| CommandLines.DecimalTen | src/portable_shell.c:582 | `%d` of ten is `10` |
| CommandLines.TokensOfXTen | src/portable_shell.c:357-362 | `x 10` splits into `x` and `10` |
| CommandLines.TokensOfSet | src/portable_shell.c:357-362 | `set x 10` splits into three words |
| CommandLines.ArgsOfSet | src/portable_shell.c:346-366 | the argument vector of `set x 10` is `set`, `x`, `10` |
| CommandLines.ArgsOfGet | src/portable_shell.c:346-366 | the argument vector of `get x` is `get`, `x` |
| CommandLines.SetEchoes | src/portable_shell.c:632-635 | `set x 10` echoes `Set x = 10` |
| CommandLines.GetAfterSetTen | src/portable_shell.c:563-638 | on an Int `x`, `set x 10` then `get x` prints `x = 10` |
| CommandLines.BoolCoercion | src/portable_shell.c:625-628 | `yes` and `1` set a Bool to true, `maybe` sets it to false |
| CommandLines.ArgsOfOneWord | src/portable_shell.c:346-366 | `help`, `clear` and `cls` are one-word argument vectors |
| CommandLines.ArgsOfFrobnicate | src/portable_shell.c:346-366 | `frobnicate` is a one-word argument vector |
| Scenarios.GetAndSetBuilt | src/portable_shell.c:79-80 | a fresh shell binds `get` and `set` to their built-ins |
| Scenarios.RunsCallback | src/portable_shell.c:386-393 | a line whose first word names a command runs that command with the line's words |
| Scenarios.InvokeSet | src/portable_shell.c:601-638 | the `set` built-in on the shell stores and prints what `Set` does |
| Scenarios.SetXTen | src/portable_shell.c:378-393 | with the built-in table, `set x 10` runs `set` on the three words |
| Scenarios.GetX | src/portable_shell.c:378-393 | with the built-in table, `get x` prints what `get` prints |
| Scenarios.SetThenGetTenOn | src/portable_shell.c:378-638 | a shell with the built-ins and an Int `x` echoes `Set x = 10`, then prints `x = 10` |
| Scenarios.SetThenGetTen | src/portable_shell.c:445-459 | the same in a fresh shell with `x` registered at 5 |
| Scenarios.StatusShadowed | src/portable_shell.c:405-418 | `status` registered twice runs only the second callback |
| Scenarios.FrobnicateUnknown | src/portable_shell.c:76-81 | no built-in is called `frobnicate` |
| Scenarios.FrobnicateFits | src/portable_shell.c:204-205 | `frobnicate` is printable and fits the buffer |
| Scenarios.UnknownWordTyped | src/portable_shell.c:397-401 | a one-word unknown command typed and submitted prints `Command not found: <word>`. It runs nothing, keeps the parameters, commits the word to the history and empties the line |
| Scenarios.FrobnicateTyped | src/portable_shell.c:164-177 | the same for `frobnicate` in a shell with the built-in table |
| Scenarios.FreshHistoryRecordsFrobnicate | src/portable_shell.c:339-341 | in a fresh shell, the history afterwards holds `frobnicate` alone |
| Scenarios.HelpPrintsEveryCommand | src/portable_shell.c:533-551 | typing `help` on a shell where it names the built-in prints the header and every registered command in list order, each line between the newer commands' and the older ones', with status 0 and no change |
| Scenarios.HelpRuns | src/portable_shell.c:533-551 | a `help` line on a shell where that name runs the built-in prints `HelpListing` of the table with status 0 and changes nothing |
| Scenarios.ClearRuns | src/portable_shell.c:554-560 | with the built-in table, `clear` and `cls` both clear the screen and home the cursor with status 0, and change nothing |

## Left out

- Parameters.Format: a Float parameter prints the text it was last given. The code stores `atof` of the text in a `float` and prints it with `%.2f` (src/portable_shell.c:586, :619). So `set f abc` then `get f` prints `f = abc` here and `f = 0.00` in the code, and `set f 3` then `get f` prints `f = 3` here and `f = 3.00` in the code. The echo `Set f = 3` is the same in both, since `set` echoes its argument verbatim (src/portable_shell.c:632-635). Floating point is not modelled.
- Parameters.Assign: for a Float, the text is kept verbatim instead of being converted with `atof`.
- Parameters.AssignFormatRoundTrip: its Float case holds only because a Float keeps its text.
- Parameters.Param.Valid: a String needs `max_size` of at least 1. The code accepts 0, and `set` then writes before the array, which is undefined behaviour.
- Shell.RegisterParameter: requires a parameter whose storage holds a proper value, so it excludes the `max_size` 0 String above. An Int outside the 32-bit range cannot arise in the code.
- Shell.Invoke: `edit` with parameters is handed off as a `Call` and prints nothing here. The code switches to the alternate screen and prints the parameter table. It then reads and discards every input byte up to the first `q` or `Q`, and leaves the alternate screen (src/portable_shell.c:649-708).
- Shell.Invoke: a foreign callback is recorded as a `Call` and is assumed to print nothing and change nothing. The code passes it the shell (src/portable_shell.c:390), so it may print (tests/test_shell.c:23), register or unregister commands, or change parameters. Its return value is `Delegated` here.
- Editor.Feed: the bytes after a submitted `edit` with parameters are treated as typing. The code's `edit` consumes them up to `q` or `Q`.
- Editor.Feed: the promise that the command table never changes rests on the inert foreign callbacks above. The same holds for `Editor.ProcessChar` and `Editor.Submit`.
- Editor.FeedConcat: splits only after a prefix without an ESC byte. A prefix ending in a complete arrow, Home or End sequence is covered one sequence at a time by `EscapeStep`; a general split after complete sequences is not stated.
- Registry.Update: a parameter's value lives in its registry entry. In the code the entry points at the caller's storage. Two registrations of one variable therefore share a value, and the host program may change it between commands. Neither is modelled.
- Text.Atoi: follows glibc on a 64-bit `long` target. `strtol` saturates at the `long` bounds, then the value is narrowed to `int` by wrap-around. Where `long` is 32 bits, an out-of-range value saturates at the `int` bounds instead. The C standard leaves an out-of-range `atoi` undefined.
- Shell.Settings: `historySize` is a `nat`, where the code's field is `uint16_t`. The other `uint16_t` counters (`cmd_pos`, `cmd_len`, `history_count`, `history_pos`) stay below 256 or below the capacity, so their width never matters.
- Memory-allocation failure is not modelled. That covers `ps_create` returning NULL, registration returning -1 when `malloc` fails, and `ps_parse_args` returning NULL.
- NULL arguments to the API are not modelled: the shell, the name, the callback or the storage pointer. Nor is the status that `ps_register_command` and `ps_register_parameter` return, which is 0 whenever those are non-NULL. A NULL help text is an `Option`.
- `ps_destroy` only frees memory, and there is no memory in this model.
- The `running` flag and `ps_stop` are not modelled; `Feed` stops at the end of its input. The first prompt that `ps_run` prints is `PromptText`.
- `ps_print` may use `write_str` or one `write_char` per byte. The output is the same byte string either way, and that is what the model records.
- The default stdio callbacks, the socket transport (src/ps_io_socket.c) and the example programs are not part of this model.
- The `tui_mode` field is set but never read.

=== FILE: command_lines.dfy ===
/** Example command lines and what the tokenizer and the `get`/`set`
    built-ins make of them, on their own, before the whole shell runs them. */
module CommandLines {
  import opened Wrappers
  import opened Text
  import opened Registry
  import opened Tokenizer
  import opened Parameters

  /** How the example lines and outputs are spelled, as concatenations of
      their parts; kept apart so that the proofs below work on the parts. */
  lemma Spellings()
    ensures "" + "10" == "10" && "" + "x" == "x"
    ensures "x" + " " + "10" == "x 10" && "set" + " " + "x 10" == "set x 10"
    ensures "get" + " " + "x" == "get x"
    ensures "Set " + "x" + " = " + "10" + "\n" == "Set x = 10\n"
    ensures "x" + " = " + "10" + "\n" == "x = 10\n"
  {
  }

  /** `%d` of ten. */
  lemma DecimalTen()
    ensures Decimal(10) == "10"
  {
    assert Digits(1) == "1";
  }

  lemma TokensOfXTen()
    ensures Tokens("x 10") == ["x", "10"]
  {
    Spellings();
    TokensOfPaddedWord("", "10");
    TokensOfWordThenSpace("x", "10");
  }

  lemma TokensOfSet()
    ensures Tokens("set x 10") == ["set", "x", "10"]
  {
    Spellings();
    TokensOfXTen();
    TokensOfWordThenSpace("set", "x 10");
  }

  /** The three words of `set x 10`. */
  lemma ArgsOfSet()
    ensures Args("set x 10") == ["set", "x", "10"]
  {
    TokensOfSet();
  }

  /** The two words of `get x`. */
  lemma ArgsOfGet()
    ensures Args("get x") == ["get", "x"]
  {
    Spellings();
    TokensOfPaddedWord("", "x");
    TokensOfWordThenSpace("get", "x");
  }

  /** The one word of `help`, `clear` or `cls`. */
  lemma ArgsOfOneWord(w: string)
    requires w == "help" || w == "clear" || w == "cls"
    ensures Args(w) == [w]
  {
    TokensOfPaddedWord("", w);
    assert "" + w == w;
  }

  /** `set x 10` on a table holding an Int `x` echoes the assignment. */
  lemma SetEchoes(params: seq<Entry<Param>>)
    requires AllValid(params) && Named(params, "x")
    ensures Set(params, ["set", "x", "10"]).out == "Set x = 10\n"
  {
    Spellings();
  }

  /** `set x 10` then `get x` on a table whose `x` is an Int prints
      `x = 10`. */
  lemma GetAfterSetTen(params: seq<Entry<Param>>)
    requires AllValid(params) && Lookup(params, "x").Some? && Lookup(params, "x").value.value.IntValue?
    ensures Get(Set(params, ["set", "x", "10"]).params, ["get", "x"]).out == "x = 10\n"
  {
    DecimalTen();
    SetThenGetInt(params, "x", 10);
    Spellings();
  }

  /** A Bool parameter is set to true by `yes` and by `1`, and to false by
      `maybe`. */
  lemma BoolCoercion(params: seq<Entry<Param>>, b: bool, size: nat)
    requires AllValid(params) && Lookup(params, "flag") == Some(Param(BoolValue(b), size))
    ensures Lookup(Set(params, ["set", "flag", "yes"]).params, "flag") == Some(Param(BoolValue(true), size))
    ensures Lookup(Set(params, ["set", "flag", "1"]).params, "flag") == Some(Param(BoolValue(true), size))
    ensures Lookup(Set(params, ["set", "flag", "maybe"]).params, "flag") == Some(Param(BoolValue(false), size))
  {
    assert "maybe"[0] != "true"[0] && "maybe"[0] != "1"[0] && "maybe"[0] != "yes"[0];
  }

  /** A word no built-in is called. */
  const Frobnicate: seq<Byte> := ['f', 'r', 'o', 'b', 'n', 'i', 'c', 'a', 't', 'e']

  lemma ArgsOfFrobnicate()
    ensures Args(Frobnicate) == [Frobnicate]
  {
    TokensOfPaddedWord("", Frobnicate);
    assert "" + Frobnicate == Frobnicate;
  }
}

=== FILE: editor.dfy ===
/** The byte-driven line editor: `ps_process_char` and
    `ps_handle_escape_sequence` (src/portable_shell.c:143-300). The bytes
    `read_char` would deliver after the current one are the `pending`
    sequence; an escape sequence consumes up to three of them, and a byte
    that does not continue a known sequence is consumed and dropped. A
    sequence cut short by the end of input has no effect, as when
    `read_char` returns -1. */
module Editor {
  import opened Wrappers
  import opened Text
  import opened Registry
  import opened Tokenizer
  import opened History
  import opened LineBuffer
  import opened Parameters
  import opened Vt100
  import opened Shell

  /** The effect of one key: the new shell, the bytes written, and the
      callbacks handed off. */
  datatype Effect = Effect(shell: Shell, out: string, calls: seq<Call>)

  /** One call of `ps_process_char`, with the number of further input bytes
      it read. */
  datatype Step = Step(shell: Shell, out: string, calls: seq<Call>, used: nat)

  /** Everything but the line and history browse position is kept. */
  predicate OnlyLineAndBrowseChange(s: Shell, s': Shell) {
    s'.config == s.config && s'.commands == s.commands && s'.params == s.params
    && s'.history.entries == s.history.entries
  }

  // ---------------------------------------------------------------------
  // Plain keys

  /** Ctrl-C: print `^C`, empty the line and show a fresh prompt. The
      history and its browse position are untouched. */
  function CancelLine(s: Shell): (e: Effect)
    requires s.Valid()
    ensures e.shell.Valid()
    ensures e.shell.line == EmptyLine
    ensures e.shell.history == s.history && OnlyLineAndBrowseChange(s, e.shell)
    ensures e.out == "^C\n" + PromptText(s.config) && e.calls == []
  {
    Effect(s.(line := EmptyLine), "^C\n" + PromptText(s.config), [])
  }

  /** Ctrl-L: clear the screen and print the prompt and the line; the
      terminal cursor is left after the line, wherever the line's cursor is. */
  function Repaint(s: Shell): (e: Effect)
    requires s.Valid()
    ensures e.shell == s && e.calls == []
    ensures e.out == ClearScreen(s.config.vt100) + PromptText(s.config) + s.line.text
  {
    Effect(s, ClearScreen(s.config.vt100) + PromptText(s.config) + s.line.text, [])
  }

  /** Enter: a newline; a non-empty line is committed to the history first,
      then dispatched, then cleared; a fresh prompt in every case. An empty
      line changes nothing. */
  function Submit(s: Shell): (e: Effect)
    requires s.Valid()
    ensures e.shell.Valid()
    ensures e.shell.config == s.config && e.shell.commands == s.commands
    ensures |e.out| >= 1 && e.out[0] == '\n'
    ensures s.line.text == "" ==> e == Effect(s, "\n" + PromptText(s.config), [])
    ensures s.line.text != "" ==>
              var committed := s.(history := Commit(s.history, s.line.text));
              var x := Execute(committed, s.line.text);
              && e.shell.line == EmptyLine
              && e.shell.history == committed.history
              && e.shell.params == x.shell.params
              && e.out == "\n" + x.out + PromptText(s.config)
              && e.calls == x.calls
  {
    if s.line.text == "" then Effect(s, "\n" + PromptText(s.config), [])
    else
      var committed := Record(s, s.line.text);
      var x := Execute(committed, s.line.text);
      Effect(x.shell.(line := EmptyLine), "\n" + x.out + PromptText(s.config), x.calls)
  }

  /** Backspace (0x7F or 0x08): remove the byte before the cursor and
      redraw; nothing at the start of the line. */
  function Rubout(s: Shell): (e: Effect)
    requires s.Valid()
    ensures e.shell.Valid()
    ensures e.shell.history == s.history && OnlyLineAndBrowseChange(s, e.shell) && e.calls == []
    ensures s.line.cursor > 0 ==> e.shell.line == RemoveBefore(s.line) && e.out == Redraw(e.shell)
    ensures s.line.cursor == 0 ==> e == Effect(s, "", [])
  {
    if s.line.cursor > 0 then
      var s' := s.(line := RemoveBefore(s.line));
      Effect(s', Redraw(s'), [])
    else Effect(s, "", [])
  }

  /** Tab: no completion, only the bell, whether or not VT100 output is on. */
  function Ring(s: Shell): (e: Effect)
    requires s.Valid()
    ensures e.shell == s && e.calls == []
    ensures e.out == [Bel]
  {
    Effect(s, Bell(), [])
  }

  /** A printable byte: inserted at the cursor and the line redrawn while
      the line has room; refused silently once it holds 255 bytes. */
  function TypeChar(s: Shell, c: char): (e: Effect)
    requires s.Valid() && Printable(c)
    ensures e.shell.Valid()
    ensures e.shell.history == s.history && OnlyLineAndBrowseChange(s, e.shell) && e.calls == []
    ensures s.line.HasRoom() ==> e.shell.line == Insert(s.line, c) && e.out == Redraw(e.shell)
    ensures !s.line.HasRoom() ==> e == Effect(s, "", [])
  {
    if s.line.HasRoom() then
      var s' := s.(line := Insert(s.line, c));
      Effect(s', Redraw(s'), [])
    else Effect(s, "", [])
  }

  // ---------------------------------------------------------------------
  // Escape sequences

  /** ESC `[` `A`: recall the next older history entry with the cursor at its
      end, and redraw; nothing at the oldest entry. */
  function RecallOlder(s: Shell): (e: Effect)
    requires s.Valid()
    ensures e.shell.Valid()
    ensures OnlyLineAndBrowseChange(s, e.shell) && e.calls == []
    ensures s.history.pos < |s.history.entries| ==>
              && e.shell.history.pos == s.history.pos + 1
              && e.shell.line == Load(e.shell.history.Recalled())
              && e.out == Redraw(e.shell)
    ensures s.history.pos == |s.history.entries| ==> e == Effect(s, "", [])
  {
    var b := Older(s.history);
    match b.loaded
    case None => Effect(s, "", [])
    case Some(t) =>
      var s' := s.(history := b.history, line := Load(t));
      Effect(s', Redraw(s'), [])
  }

  /** ESC `[` `B`: recall the next newer entry, or the empty line when
      leaving the newest, and redraw; nothing when not browsing. */
  function RecallNewer(s: Shell): (e: Effect)
    requires s.Valid()
    ensures e.shell.Valid()
    ensures OnlyLineAndBrowseChange(s, e.shell) && e.calls == []
    ensures s.history.pos > 0 ==>
              && e.shell.history.pos == s.history.pos - 1
              && e.shell.line == Load(e.shell.history.Recalled())
              && e.out == Redraw(e.shell)
    ensures s.history.pos == 1 ==> e.shell.line == EmptyLine
    ensures s.history.pos == 0 ==> e == Effect(s, "", [])
  {
    var b := Newer(s.history);
    match b.loaded
    case None => Effect(s, "", [])
    case Some(t) =>
      assert t == "" || t in s.history.entries;
      var s' := s.(history := b.history, line := Load(t));
      Effect(s', Redraw(s'), [])
  }

  /** ESC `[` `C`: one place right, unless at the end of the line. */
  function MoveRight(s: Shell): (e: Effect)
    requires s.Valid()
    ensures e.shell.Valid()
    ensures e.shell.history == s.history && OnlyLineAndBrowseChange(s, e.shell) && e.calls == []
    ensures e.shell.line.text == s.line.text
    ensures s.line.cursor < |s.line.text| ==>
              e.shell.line.cursor == s.line.cursor + 1 && e.out == CursorRight(s.config.vt100, 1)
    ensures s.line.cursor == |s.line.text| ==> e == Effect(s, "", [])
  {
    if s.line.cursor < |s.line.text| then
      Effect(s.(line := s.line.(cursor := s.line.cursor + 1)), CursorRight(s.config.vt100, 1), [])
    else Effect(s, "", [])
  }

  /** ESC `[` `D`: one place left, unless at the start of the line. */
  function MoveLeft(s: Shell): (e: Effect)
    requires s.Valid()
    ensures e.shell.Valid()
    ensures e.shell.history == s.history && OnlyLineAndBrowseChange(s, e.shell) && e.calls == []
    ensures e.shell.line.text == s.line.text
    ensures s.line.cursor > 0 ==>
              e.shell.line.cursor == s.line.cursor - 1 && e.out == CursorLeft(s.config.vt100, 1)
    ensures s.line.cursor == 0 ==> e == Effect(s, "", [])
  {
    if s.line.cursor > 0 then
      Effect(s.(line := s.line.(cursor := s.line.cursor - 1)), CursorLeft(s.config.vt100, 1), [])
    else Effect(s, "", [])
  }

  /** ESC `[` `H`: cursor to the start of the line, terminal cursor to the
      column after the prompt. */
  function MoveHome(s: Shell): (e: Effect)
    requires s.Valid()
    ensures e.shell.Valid()
    ensures e.shell.history == s.history && OnlyLineAndBrowseChange(s, e.shell) && e.calls == []
    ensures e.shell.line == Line(s.line.text, 0)
    ensures e.out == CursorMove(s.config.vt100, |s.config.prompt|)
  {
    Effect(s.(line := s.line.(cursor := 0)), CursorMove(s.config.vt100, |s.config.prompt|), [])
  }

  /** ESC `[` `F`: cursor to the end of the line, terminal cursor after it. */
  function MoveEnd(s: Shell): (e: Effect)
    requires s.Valid()
    ensures e.shell.Valid()
    ensures e.shell.history == s.history && OnlyLineAndBrowseChange(s, e.shell) && e.calls == []
    ensures e.shell.line == Load(s.line.text)
    ensures e.out == CursorMove(s.config.vt100, |s.config.prompt| + |s.line.text|)
  {
    Effect(s.(line := s.line.(cursor := |s.line.text|)),
           CursorMove(s.config.vt100, |s.config.prompt| + |s.line.text|), [])
  }

  /** ESC `[` `3` `~`: remove the byte under the cursor and redraw; nothing
      at the end of the line. */
  function DeleteForward(s: Shell): (e: Effect)
    requires s.Valid()
    ensures e.shell.Valid()
    ensures e.shell.history == s.history && OnlyLineAndBrowseChange(s, e.shell) && e.calls == []
    ensures s.line.cursor < |s.line.text| ==> e.shell.line == RemoveAt(s.line) && e.out == Redraw(e.shell)
    ensures s.line.cursor == |s.line.text| ==> e == Effect(s, "", [])
  {
    if s.line.cursor < |s.line.text| then
      var s' := s.(line := RemoveAt(s.line));
      Effect(s', Redraw(s'), [])
    else Effect(s, "", [])
  }

  /** The bytes that may follow ESC `[`: the arrows, Home, End, and the `3`
      that starts Delete. */
  predicate IsSequenceKey(k: char) {
    k == 'A' || k == 'B' || k == 'C' || k == 'D' || k == 'H' || k == 'F' || k == '3'
  }

  function After(e: Effect, used: nat): Step {
    Step(e.shell, e.out, e.calls, used)
  }

  /** `ps_handle_escape_sequence`, entered after ESC. The byte after ESC must
      be `[`; the next picks the key; after `3` one more byte must be `~`.
      Any other byte ends the sequence with no effect, and is consumed. */
  function Escape(s: Shell, pending: seq<Byte>): (r: Step)
    requires s.Valid()
    ensures r.shell.Valid()
    ensures OnlyLineAndBrowseChange(s, r.shell) && r.calls == []
    ensures r.used <= |pending| && r.used <= 3
    ensures pending != [] ==> r.used >= 1
    ensures pending == [] ==> r == Step(s, "", [], 0)
    ensures pending != [] && pending[0] != '[' ==> r == Step(s, "", [], 1)
    ensures |pending| == 1 && pending[0] == '[' ==> r == Step(s, "", [], 1)
    ensures |pending| >= 2 && pending[0] == '[' && !IsSequenceKey(pending[1]) ==> r == Step(s, "", [], 2)
    ensures |pending| == 2 && pending[0] == '[' && pending[1] == '3' ==> r == Step(s, "", [], 2)
    ensures |pending| >= 3 && pending[0] == '[' && pending[1] == '3' && pending[2] != '~' ==> r == Step(s, "", [], 3)
    ensures |pending| >= 2 && pending[0] == '[' && pending[1] == 'A' ==> r == After(RecallOlder(s), 2)
    ensures |pending| >= 2 && pending[0] == '[' && pending[1] == 'B' ==> r == After(RecallNewer(s), 2)
    ensures |pending| >= 2 && pending[0] == '[' && pending[1] == 'C' ==> r == After(MoveRight(s), 2)
    ensures |pending| >= 2 && pending[0] == '[' && pending[1] == 'D' ==> r == After(MoveLeft(s), 2)
    ensures |pending| >= 2 && pending[0] == '[' && pending[1] == 'H' ==> r == After(MoveHome(s), 2)
    ensures |pending| >= 2 && pending[0] == '[' && pending[1] == 'F' ==> r == After(MoveEnd(s), 2)
    ensures |pending| >= 3 && pending[..3] == "[3~" ==> r == After(DeleteForward(s), 3)
  {
    if pending == [] then Step(s, "", [], 0)
    else if pending[0] != '[' || |pending| == 1 then Step(s, "", [], 1)
    else
      var key := pending[1];
      if key == 'A' then After(RecallOlder(s), 2)
      else if key == 'B' then After(RecallNewer(s), 2)
      else if key == 'C' then After(MoveRight(s), 2)
      else if key == 'D' then After(MoveLeft(s), 2)
      else if key == 'H' then After(MoveHome(s), 2)
      else if key == 'F' then After(MoveEnd(s), 2)
      else if key == '3' then
        if |pending| == 2 then Step(s, "", [], 2)
        else if pending[2] == '~' then After(DeleteForward(s), 3)
        else Step(s, "", [], 3)
      else Step(s, "", [], 2)
  }

  // ---------------------------------------------------------------------
  // The character processor

  /** The bytes `ps_process_char` acts on besides printable ones. */
  predicate IsKey(c: char) {
    c == CtrlC || c == CtrlL || c == EnterKey || c == NewlineKey
    || c == BackspaceKey || c == CtrlH || c == TabKey || c == Esc
  }

  /** `ps_process_char` for every byte but ESC. */
  function Key(s: Shell, c: Byte): (e: Effect)
    requires s.Valid() && c != Esc
    ensures e.shell.Valid()
    ensures e.shell.config == s.config && e.shell.commands == s.commands
    ensures c != EnterKey && c != NewlineKey ==> OnlyLineAndBrowseChange(s, e.shell) && e.calls == []
    ensures c != EnterKey && c != NewlineKey ==> e.shell.history == s.history
    ensures !IsKey(c) && !Printable(c) ==> e == Effect(s, "", [])
    ensures Printable(c) ==> e.shell.line == (if s.line.HasRoom() then Insert(s.line, c) else s.line)
    ensures c == CtrlC ==> e == CancelLine(s)
    ensures c == CtrlL ==> e == Repaint(s)
    ensures c == EnterKey || c == NewlineKey ==> e == Submit(s)
    ensures c == BackspaceKey || c == CtrlH ==> e == Rubout(s)
    ensures c == TabKey ==> e == Ring(s)
    ensures Printable(c) ==> e == TypeChar(s, c)
  {
    if c == CtrlC then CancelLine(s)
    else if c == CtrlL then Repaint(s)
    else if c == EnterKey || c == NewlineKey then Submit(s)
    else if c == BackspaceKey || c == CtrlH then Rubout(s)
    else if c == TabKey then Ring(s)
    else if Printable(c) then TypeChar(s, c)
    else Effect(s, "", [])
  }

  /** `ps_process_char`: ESC reads the rest of its sequence from `pending`;
      every other byte leaves `pending` unread. */
  function ProcessChar(s: Shell, c: Byte, pending: seq<Byte>): (r: Step)
    requires s.Valid()
    ensures r.shell.Valid()
    ensures r.shell.config == s.config && r.shell.commands == s.commands
    ensures r.used <= |pending|
    ensures c != Esc ==> r.used == 0
    ensures c == Esc && pending != [] ==> 1 <= r.used <= 3
    ensures c != EnterKey && c != NewlineKey ==> OnlyLineAndBrowseChange(s, r.shell) && r.calls == []
    ensures c == Esc ==> r == Escape(s, pending)
    ensures c != Esc ==> r == After(Key(s, c), 0)
  {
    if c == Esc then Escape(s, pending) else After(Key(s, c), 0)
  }

  // ---------------------------------------------------------------------
  // A whole input stream

  /** What a stretch of input does: final shell, all output, all hand-offs. */
  datatype Run = Run(shell: Shell, out: string, calls: seq<Call>)

  /** `r` followed by `r2`: the later shell, the output and hand-offs of
      both in order. */
  function Append(r: Run, r2: Run): Run {
    Run(r2.shell, r.out + r2.out, r.calls + r2.calls)
  }

  lemma {:induction false} AppendAssociates(r1: Run, r2: Run, r3: Run)
    ensures Append(r1, Append(r2, r3)) == Append(Append(r1, r2), r3)
  {
    assert r1.out + (r2.out + r3.out) == (r1.out + r2.out) + r3.out;
    assert r1.calls + (r2.calls + r3.calls) == (r1.calls + r2.calls) + r3.calls;
  }

  /** The loop of `ps_run` after its first prompt: each byte read is given to
      the character processor, which may read more itself. The buffer
      invariant holds after every byte. */
  function Feed(s: Shell, input: seq<Byte>): (r: Run)
    requires s.Valid()
    ensures r.shell.Valid()
    ensures r.shell.config == s.config && r.shell.commands == s.commands
    decreases |input|
  {
    if input == [] then Run(s, "", [])
    else
      var st := ProcessChar(s, input[0], input[1..]);
      Append(Run(st.shell, st.out, st.calls), Feed(st.shell, input[1 + st.used..]))
  }

  /** No Enter or newline byte: input that cannot submit a line. */
  predicate NoEnter(a: seq<Byte>) {
    forall i :: 0 <= i < |a| ==> a[i] != EnterKey && a[i] != NewlineKey
  }

  lemma {:induction false} TailNoEnter(a: seq<Byte>, k: nat)
    requires a != [] && k <= |a|
    ensures NoEnter(a) ==> a[0] != EnterKey && a[0] != NewlineKey && NoEnter(a[k..])
  {
    assert forall i :: 0 <= i < |a[k..]| ==> a[k..][i] == a[k + i];
  }

  predicate NoEsc(a: seq<Byte>) {
    forall i :: 0 <= i < |a| ==> a[i] != Esc
  }

  /** One step of `Feed`: the first byte, with whatever it reads after it. */
  lemma {:induction false} FeedHead(s: Shell, a: seq<Byte>)
    requires s.Valid() && a != []
    ensures var st := ProcessChar(s, a[0], a[1..]);
            Feed(s, a) == Append(Run(st.shell, st.out, st.calls), Feed(st.shell, a[1 + st.used..]))
  {
  }

  /** A step followed by no more input is that step alone. */
  lemma {:induction false} AppendNothing(r: Run)
    requires r.shell.Valid()
    ensures Append(r, Feed(r.shell, [])) == r
  {
    assert r.out + "" == r.out && r.calls + [] == r.calls;
  }

  lemma {:induction false} ConsSlices<T>(c: T, rest: seq<T>)
    ensures ([c] + rest) != [] && ([c] + rest)[0] == c && ([c] + rest)[1..] == rest
  {
  }

  /** A byte other than ESC is handled on its own and reads nothing more. */
  lemma {:induction false} PlainHead(s: Shell, c: Byte, rest: seq<Byte>)
    requires s.Valid() && c != Esc
    ensures var st := ProcessChar(s, c, rest);
            Feed(s, [c] + rest) == Append(Run(st.shell, st.out, st.calls), Feed(st.shell, rest))
  {
    ConsSlices(c, rest);
    FeedHead(s, [c] + rest);
  }

  /** A byte other than ESC does not look at the bytes after it. */
  lemma {:induction false} PlainIgnoresPending(s: Shell, c: Byte, p: seq<Byte>, q: seq<Byte>)
    requires s.Valid() && c != Esc
    ensures ProcessChar(s, c, p) == ProcessChar(s, c, q)
  {
  }

  lemma {:induction false} SplitHead(a: seq<Byte>, b: seq<Byte>)
    requires a != [] && NoEsc(a)
    ensures a[0] != Esc && NoEsc(a[1..])
    ensures a == [a[0]] + a[1..] && a + b == [a[0]] + (a[1..] + b)
  {
    assert forall i :: 0 <= i < |a[1..]| ==> a[1..][i] == a[i + 1];
    assert a == [a[0]] + a[1..];
  }

  /** Input splits after any prefix without an ESC byte: feeding `a + b`,
      where `a` holds no ESC, is feeding `a`, then `b` to the shell `a`
      leaves. */
  lemma {:induction false} FeedConcat(s: Shell, a: seq<Byte>, b: seq<Byte>)
    requires s.Valid() && NoEsc(a)
    ensures var ra := Feed(s, a); Feed(s, a + b) == Append(ra, Feed(ra.shell, b))
    decreases |a|
  {
    if a == [] {
      assert a + b == b;
      var rb := Feed(s, b);
      assert "" + rb.out == rb.out && [] + rb.calls == rb.calls;
    } else {
      SplitHead(a, b);
      var st := ProcessChar(s, a[0], a[1..]);
      PlainIgnoresPending(s, a[0], a[1..], a[1..] + b);
      var r0 := Run(st.shell, st.out, st.calls);
      PlainHead(s, a[0], a[1..] + b);
      FeedConcat(st.shell, a[1..], b);
      var fa := Feed(st.shell, a[1..]);
      PlainHead(s, a[0], a[1..]);
      AppendAssociates(r0, fa, Feed(fa.shell, b));
    }
  }

  /** `FeedConcat`, field by field. */
  lemma {:induction false} FeedConcatParts(s: Shell, a: seq<Byte>, b: seq<Byte>)
    requires s.Valid() && NoEsc(a)
    ensures var ra := Feed(s, a);
            var rb := Feed(ra.shell, b);
            && Feed(s, a + b).shell == rb.shell
            && Feed(s, a + b).out == ra.out + rb.out
            && Feed(s, a + b).calls == ra.calls + rb.calls
  {
    FeedConcat(s, a, b);
  }

  /** A single byte other than ESC. */
  lemma {:induction false} FeedOne(s: Shell, c: Byte)
    requires s.Valid() && c != Esc
    ensures var e := Key(s, c);
            Feed(s, [c]) == Run(e.shell, e.out, e.calls)
  {
    PlainHead(s, c, []);
    assert [c] + [] == [c];
    var e := Key(s, c);
    AppendNothing(Run(e.shell, e.out, e.calls));
  }

  predicate AllPrintable(w: seq<Byte>) {
    forall i :: 0 <= i < |w| ==> Printable(w[i])
  }

  /** A printable byte typed at the end of a line with room is appended;
      nothing else changes. */
  lemma {:induction false} TypeAtEnd(s: Shell, c: Byte)
    requires s.Valid() && s.line.cursor == |s.line.text| && s.line.HasRoom() && Printable(c)
    ensures Key(s, c).shell == s.(line := Load(s.line.text + [c]))
    ensures Key(s, c).calls == []
  {
    InsertAtEndAppends(s.line, c);
  }

  lemma {:induction false} SplitLast(t: string, w: seq<Byte>)
    requires w != [] && AllPrintable(w)
    ensures w == w[..|w| - 1] + [w[|w| - 1]]
    ensures AllPrintable(w[..|w| - 1]) && NoEsc(w[..|w| - 1]) && Printable(w[|w| - 1])
    ensures (t + w[..|w| - 1]) + [w[|w| - 1]] == t + w
  {
    assert w == w[..|w| - 1] + [w[|w| - 1]];
  }

  /** Typing printable bytes at the end of a line that has room for them
      appends them and leaves the cursor after them; nothing else changes
      and nothing runs. */
  lemma {:induction false} FeedTypesText(s: Shell, w: seq<Byte>)
    requires s.Valid() && s.line.cursor == |s.line.text|
    requires AllPrintable(w) && |s.line.text| + |w| < MaxCmdLength
    ensures Feed(s, w).shell.line.text == s.line.text + w
    ensures Feed(s, w).shell.line.cursor == |s.line.text| + |w|
    ensures Feed(s, w).shell == s.(line := Feed(s, w).shell.line)
    ensures Feed(s, w).calls == []
    decreases |w|
  {
    if w == [] {
      assert s.line.text + w == s.line.text;
    } else {
      var u := w[..|w| - 1];
      var c := w[|w| - 1];
      SplitLast(s.line.text, w);
      FeedConcatParts(s, u, [c]);
      FeedTypesText(s, u);
      var s1 := Feed(s, u).shell;
      TypeAtEnd(s1, c);
      FeedOne(s1, c);
    }
  }

  /** One step on input without Enter or newline. */
  lemma {:induction false} StepWithoutEnter(s: Shell, input: seq<Byte>)
    requires s.Valid() && input != [] && NoEnter(input)
    ensures var st := ProcessChar(s, input[0], input[1..]);
            && OnlyLineAndBrowseChange(s, st.shell) && st.calls == []
            && 1 + st.used <= |input| && NoEnter(input[1 + st.used..])
  {
    var st := ProcessChar(s, input[0], input[1..]);
    TailNoEnter(input, 1 + st.used);
  }

  /** Input without Enter or newline submits nothing: only the line and
      the history browse position can change, and nothing is handed off. */
  lemma {:induction false} FeedWithoutEnter(s: Shell, input: seq<Byte>)
    requires s.Valid() && NoEnter(input)
    ensures OnlyLineAndBrowseChange(s, Feed(s, input).shell) && Feed(s, input).calls == []
    decreases |input|
  {
    if input != [] {
      var st := ProcessChar(s, input[0], input[1..]);
      StepWithoutEnter(s, input);
      FeedWithoutEnter(st.shell, input[1 + st.used..]);
      FeedHeadParts(s, input);
    }
  }

  /** `FeedHead`, field by field. */
  lemma {:induction false} FeedHeadParts(s: Shell, a: seq<Byte>)
    requires s.Valid() && a != []
    ensures var st := ProcessChar(s, a[0], a[1..]);
            var rest := Feed(st.shell, a[1 + st.used..]);
            Feed(s, a).shell == rest.shell && Feed(s, a).calls == st.calls + rest.calls
  {
    FeedHead(s, a);
  }

  lemma {:induction false} EscapeSlices(k: Byte, rest: seq<Byte>)
    ensures var input := [Esc, '[', k] + rest;
            input[0] == Esc && input[1..] == ['[', k] + rest && input[3..] == rest
  {
  }

  /** An arrow, Home or End sequence reads two bytes after ESC, whatever
      follows them. */
  lemma {:induction false} EscapeIgnoresRest(s: Shell, k: Byte, rest: seq<Byte>)
    requires s.Valid() && k in "ABCDHF"
    ensures Escape(s, ['[', k] + rest) == Escape(s, ['[', k])
    ensures Escape(s, ['[', k]).used == 2
  {
    assert (['[', k] + rest)[0] == '[' && (['[', k] + rest)[1] == k;
  }

  /** A complete arrow, Home or End sequence reads its three bytes and no
      more. */
  lemma {:induction false} EscapeStep(s: Shell, k: Byte, rest: seq<Byte>)
    requires s.Valid() && k in "ABCDHF"
    ensures var e := Escape(s, ['[', k]);
            Feed(s, [Esc, '[', k] + rest) == Append(Run(e.shell, e.out, e.calls), Feed(e.shell, rest))
  {
    EscapeSlices(k, rest);
    EscapeIgnoresRest(s, k, rest);
    FeedHead(s, [Esc, '[', k] + rest);
  }

  /** An arrow, Home or End sequence and nothing after it. */
  lemma {:induction false} EscapeOne(s: Shell, k: Byte)
    requires s.Valid() && k in "ABCDHF"
    ensures var e := Escape(s, ['[', k]);
            Feed(s, [Esc, '[', k]) == Run(e.shell, e.out, e.calls)
  {
    EscapeStep(s, k, []);
    assert [Esc, '[', k] + [] == [Esc, '[', k];
    var e := Escape(s, ['[', k]);
    AppendNothing(Run(e.shell, e.out, e.calls));
  }

  /** Two such sequences in a row: the shell after both. */
  lemma {:induction false} EscapeTwice(s: Shell, k1: Byte, k2: Byte)
    requires s.Valid() && k1 in "ABCDHF" && k2 in "ABCDHF"
    ensures Feed(s, [Esc, '[', k1, Esc, '[', k2]).shell
            == Escape(Escape(s, ['[', k1]).shell, ['[', k2]).shell
  {
    assert [Esc, '[', k1] + [Esc, '[', k2] == [Esc, '[', k1, Esc, '[', k2];
    EscapeStep(s, k1, [Esc, '[', k2]);
    EscapeOne(Escape(s, ['[', k1]).shell, k2);
  }

  /** ESC `[` `A` as an escape sequence: the older entry, redrawn. */
  lemma {:induction false} UpRecalls(s: Shell)
    requires s.Valid() && s.history.pos < |s.history.entries|
    ensures var e := Escape(s, ['[', 'A']);
            && e.shell.line.text == s.history.entries[|s.history.entries| - 1 - s.history.pos]
            && e.shell.line.cursor == |e.shell.line.text|
            && e.shell.history.pos == s.history.pos + 1
            && e.out == Redraw(e.shell) && e.calls == []
  {
  }

  /** The Up arrow, ESC `[` `A`, while an older entry exists: the line
      becomes that entry with the cursor at its end, and is redrawn. */
  lemma {:induction false} UpArrowRecalls(s: Shell)
    requires s.Valid() && s.history.pos < |s.history.entries|
    ensures var r := Feed(s, [Esc, '[', 'A']);
            && r.shell.line.text == s.history.entries[|s.history.entries| - 1 - s.history.pos]
            && r.shell.line.cursor == |r.shell.line.text|
            && r.shell.history.pos == s.history.pos + 1
            && r.out == Redraw(r.shell) && r.calls == []
  {
    EscapeOne(s, 'A');
    UpRecalls(s);
  }

  /** Up then Down, as two escape sequences. */
  lemma {:induction false} OlderThenNewer(s: Shell)
    requires s.Valid() && s.history.pos < |s.history.entries|
    ensures var s2 := Escape(Escape(s, ['[', 'A']).shell, ['[', 'B']).shell;
            s2.line == Load(s.history.Recalled()) && s2.history == s.history
  {
    NewerUndoesOlder(s.history);
  }

  /** Up then Down puts back the line the browse position stood for. */
  lemma {:induction false} UpThenDownRestores(s: Shell)
    requires s.Valid() && s.history.pos < |s.history.entries|
    ensures var r := Feed(s, [Esc, '[', 'A', Esc, '[', 'B']);
            && r.shell.line == Load(s.history.Recalled())
            && r.shell.history == s.history
  {
    EscapeTwice(s, 'A', 'B');
    OlderThenNewer(s);
  }

  /** Left then Right, as two escape sequences. */
  lemma {:induction false} LeftThenRight(s: Shell)
    requires s.Valid() && s.line.cursor > 0
    ensures Escape(Escape(s, ['[', 'D']).shell, ['[', 'C']).shell == s
  {
  }

  /** Left then Right, away from the start of the line, changes nothing. */
  lemma {:induction false} LeftThenRightRestores(s: Shell)
    requires s.Valid() && s.line.cursor > 0
    ensures Feed(s, [Esc, '[', 'D', Esc, '[', 'C']).shell == s
  {
    EscapeTwice(s, 'D', 'C');
    LeftThenRight(s);
  }

  /** A printable byte then Backspace, as two keys. */
  lemma {:induction false} RuboutAfterType(s: Shell, c: Byte)
    requires s.Valid() && s.line.HasRoom() && Printable(c)
    ensures Key(s, c).shell == s.(line := Insert(s.line, c))
    ensures Key(Key(s, c).shell, BackspaceKey).shell == s
  {
    RemoveBeforeUndoesInsert(s.line, c);
  }

  /** Typing a byte and then Backspace gives back the shell as it was. */
  lemma {:induction false} BackspaceUndoesTyping(s: Shell, c: Byte)
    requires s.Valid() && s.line.HasRoom() && Printable(c)
    ensures Feed(s, [c, BackspaceKey]).shell == s
  {
    assert [c] + [BackspaceKey] == [c, BackspaceKey];
    FeedConcatParts(s, [c], [BackspaceKey]);
    FeedOne(s, c);
    RuboutAfterType(s, c);
    FeedOne(Key(s, c).shell, BackspaceKey);
  }

  /** Ctrl-C throws away what was typed and leaves the history as it was. */
  lemma {:induction false} CancelDiscardsLine(s: Shell, w: seq<Byte>)
    requires s.Valid() && s.line.cursor == |s.line.text|
    requires AllPrintable(w) && |s.line.text| + |w| < MaxCmdLength
    ensures Feed(s, w + [CtrlC]).shell == s.(line := EmptyLine)
  {
    assert NoEsc(w);
    FeedConcatParts(s, w, [CtrlC]);
    FeedTypesText(s, w);
    FeedOne(Feed(s, w).shell, CtrlC);
  }

  /** A line typed at an empty prompt and submitted is committed to the
      history and dispatched, and the line is cleared. */
  lemma {:induction false} TypeAndSubmit(s: Shell, w: seq<Byte>)
    requires s.Valid() && s.line == EmptyLine
    requires AllPrintable(w) && w != [] && |w| < MaxCmdLength
    ensures var r := Feed(s, w + [EnterKey]);
            var committed := s.(line := Load(w), history := Commit(s.history, w));
            var x := Execute(committed, w);
            && r.shell.line == EmptyLine
            && r.shell.history == committed.history
            && r.shell.params == x.shell.params
            && r.calls == x.calls
            && r.out == Feed(s, w).out + ("\n" + x.out + PromptText(s.config))
  {
    assert NoEsc(w);
    FeedConcatParts(s, w, [EnterKey]);
    FeedTypesText(s, w);
    var s1 := Feed(s, w).shell;
    assert s1 == s.(line := Load(w));
    FeedOne(s1, EnterKey);
  }
}

=== FILE: history.dfy ===
/** The history ring of src/portable_shell.c: `ps_add_to_history` (:320-343)
    and the browse position moved by the Up and Down keys (:231-261).
    Entries are kept oldest first; `pos` counts back from the newest entry,
    0 meaning "not browsing". */
module History {
  import opened Wrappers

  datatype History = History(entries: seq<string>, capacity: nat, pos: nat) {

    /** At most `capacity` entries, none empty, no entry equal to the one
        before it, and a browse position within the entries. */
    predicate Valid() {
      && |entries| <= capacity
      && pos <= |entries|
      && (forall i :: 0 <= i < |entries| ==> entries[i] != "")
      && (forall i :: 0 < i < |entries| ==> entries[i - 1] != entries[i])
    }

    /** The line the browse position stands for: the `pos`-th newest entry,
        or the empty line when not browsing. */
    function Recalled(): string
      requires pos <= |entries|
    {
      if pos == 0 then "" else entries[|entries| - pos]
    }
  }

  /** A fresh history of the given capacity (0 disables history). */
  function Empty(capacity: nat): (h: History)
    ensures h.Valid() && h.entries == [] && h.pos == 0 && h.capacity == capacity
  {
    History([], capacity, 0)
  }

  /** The cases in which a commit leaves the history alone: history disabled,
      an empty line, or a repeat of the newest entry. */
  predicate Skips(h: History, line: string) {
    h.capacity == 0 || line == "" || (|h.entries| > 0 && h.entries[|h.entries| - 1] == line)
  }

  /** `ps_add_to_history`. */
  function Commit(h: History, line: string): (h': History)
    requires h.Valid()
    ensures h'.Valid() && h'.capacity == h.capacity
    ensures Skips(h, line) ==> h' == h
    ensures !Skips(h, line) ==>
              && h'.pos == 0
              && |h'.entries| == Min(|h.entries| + 1, h.capacity)
              && h'.entries == (h.entries + [line])[|h.entries| + 1 - |h'.entries|..]
    ensures forall i :: 0 <= i < |h'.entries| ==> h'.entries[i] in h.entries || h'.entries[i] == line
  {
    if Skips(h, line) then h
    else
      var all := h.entries + [line];
      var drop := if |h.entries| >= h.capacity then 1 else 0;
      AppendKeepsValid(h, line, drop);
      assert |all[drop..]| == Min(|h.entries| + 1, h.capacity);
      History(all[drop..], h.capacity, 0)
  }

  lemma AppendKeepsValid(h: History, line: string, drop: nat)
    requires h.Valid() && !Skips(h, line)
    requires drop == if |h.entries| >= h.capacity then 1 else 0
    ensures History((h.entries + [line])[drop..], h.capacity, 0).Valid()
    ensures forall i :: 0 <= i < |h.entries| + 1 - drop ==>
              (h.entries + [line])[drop..][i] in h.entries || (h.entries + [line])[drop..][i] == line
  {
    var all := h.entries + [line];
    assert forall i :: 0 <= i < |all| ==> all[i] != "";
    assert forall i :: 0 < i < |all| ==> all[i - 1] != all[i] by {
      forall i | 0 < i < |all|
        ensures all[i - 1] != all[i]
      {
        if i < |h.entries| {
          assert all[i - 1] == h.entries[i - 1] && all[i] == h.entries[i];
        }
      }
    }
    var kept := all[drop..];
    forall i | 0 < i < |kept|
      ensures kept[i - 1] != kept[i]
    {
      assert kept[i - 1] == all[drop + i - 1] && kept[i] == all[drop + i];
    }
  }

  /** The outcome of one browse step: the new history, and the line to load
      into the editor if the step moved. */
  datatype Browse = Browse(history: History, loaded: Option<string>)

  /** Up arrow: one entry further back, unless already at the oldest. */
  function Older(h: History): (b: Browse)
    requires h.Valid()
    ensures b.history.Valid()
    ensures b.history.entries == h.entries && b.history.capacity == h.capacity
    ensures h.pos < |h.entries| ==> b.history.pos == h.pos + 1 && b.loaded == Some(b.history.Recalled())
    ensures h.pos == |h.entries| ==> b == Browse(h, None)
    ensures b.loaded.Some? ==> b.loaded.value in h.entries
  {
    if |h.entries| > 0 && h.pos < |h.entries| then
      var h' := h.(pos := h.pos + 1);
      Browse(h', Some(h.entries[|h.entries| - h'.pos]))
    else Browse(h, None)
  }

  /** Down arrow: one entry forward, reaching the empty line at position 0;
      nothing when not browsing. */
  function Newer(h: History): (b: Browse)
    requires h.Valid()
    ensures b.history.Valid()
    ensures b.history.entries == h.entries && b.history.capacity == h.capacity
    ensures h.pos > 0 ==> b.history.pos == h.pos - 1 && b.loaded == Some(b.history.Recalled())
    ensures h.pos == 0 ==> b == Browse(h, None)
  {
    if h.pos > 0 then
      var h' := h.(pos := h.pos - 1);
      Browse(h', Some(if h'.pos == 0 then "" else h.entries[|h.entries| - h'.pos]))
    else Browse(h, None)
  }

  /** Down undoes Up: the position comes back and the line it stands for is
      loaded again. */
  lemma NewerUndoesOlder(h: History)
    requires h.Valid() && h.pos < |h.entries|
    ensures Newer(Older(h).history) == Browse(h, Some(h.Recalled()))
  {
  }

  /** Up undoes Down. */
  lemma OlderUndoesNewer(h: History)
    requires h.Valid() && h.pos > 0
    ensures Older(Newer(h).history) == Browse(h, Some(h.Recalled()))
  {
  }

  /** `k` presses of Up from the newest position. */
  function OlderTimes(h: History, k: nat): (h': History)
    requires h.Valid()
    ensures h'.Valid() && h'.entries == h.entries
    decreases k
  {
    if k == 0 then h else OlderTimes(Older(h).history, k - 1)
  }

  /** Up never wraps: after `k` presses from position `p` the position is
      `min(p + k, count)`, so the oldest entry is where browsing stops. */
  lemma {:induction false} OlderSaturates(h: History, k: nat)
    requires h.Valid()
    ensures OlderTimes(h, k).pos == Min(h.pos + k, |h.entries|)
    decreases k
  {
    if k > 0 {
      OlderSaturates(Older(h).history, k - 1);
    }
  }

  /** A commit with room left appends the line. */
  lemma CommitWithRoom(h: History, line: string)
    requires h.Valid() && !Skips(h, line) && |h.entries| < h.capacity
    ensures Commit(h, line).entries == h.entries + [line]
  {
  }

  /** A commit into a full history drops the oldest entry. */
  lemma CommitWhenFull(h: History, line: string)
    requires h.Valid() && !Skips(h, line) && |h.entries| == h.capacity
    ensures Commit(h, line).entries == h.entries[1..] + [line]
  {
  }

  /** With capacity 2, committing "a", "b", "c" keeps ["b", "c"]. */
  lemma CapacityTwoKeepsNewest()
    ensures Commit(Commit(Commit(Empty(2), "a"), "b"), "c").entries == ["b", "c"]
  {
    var h1 := Commit(Empty(2), "a");
    CommitWithRoom(Empty(2), "a");
    assert h1 == History(["a"], 2, 0);
    var h2 := Commit(h1, "b");
    assert !Skips(h1, "b") by { assert "a"[0] != "b"[0]; }
    CommitWithRoom(h1, "b");
    assert h2 == History(["a", "b"], 2, 0);
    assert !Skips(h2, "c") by { assert "b"[0] != "c"[0]; }
    CommitWhenFull(h2, "c");
    assert h2.entries[1..] + ["c"] == ["b", "c"];
  }

  /** Committing the same line twice stores it once. */
  lemma RepeatStoredOnce(capacity: nat, line: string)
    requires capacity > 0 && line != ""
    ensures Commit(Commit(Empty(capacity), line), line).entries == [line]
  {
  }
}

=== FILE: line_buffer.dfy ===
/** The input line `cmd_buffer` with `cmd_len` and `cmd_pos`
    (include/portable_shell.h:86-88), and the edits that the character
    processor of src/portable_shell.c makes to it with `memmove`. */
module LineBuffer {
  import opened Text

  /** PS_MAX_CMD_LENGTH (include/portable_shell.h:28); one byte of the array
      is kept for the terminating NUL, so a line holds at most 255 bytes. */
  const MaxCmdLength: nat := 256

  /** Text that fits the buffer: at most 255 printable bytes. */
  predicate IsLineText(t: string) {
    |t| < MaxCmdLength && forall i :: 0 <= i < |t| ==> Printable(t[i])
  }

  /** `text` is the buffer up to `cmd_len`; `cursor` is `cmd_pos`. */
  datatype Line = Line(text: string, cursor: nat) {

    /** cmd_pos <= cmd_len <= PS_MAX_CMD_LENGTH - 1. */
    predicate Valid() {
      cursor <= |text| && IsLineText(text)
    }

    /** Room for one more byte: `cmd_len < PS_MAX_CMD_LENGTH - 1`. */
    predicate HasRoom() {
      |text| < MaxCmdLength - 1
    }
  }

  const EmptyLine: Line := Line("", 0)

  /** A recalled history entry, with the cursor after its last byte. */
  function Load(t: string): (l: Line)
    requires IsLineText(t)
    ensures l.Valid() && l.text == t && l.cursor == |t|
  {
    Line(t, |t|)
  }

  /** A printable byte inserted at the cursor: the tail moves one place right
      and the cursor moves past the new byte (src/portable_shell.c:204-215). */
  function Insert(l: Line, c: char): (l': Line)
    requires l.Valid() && l.HasRoom() && Printable(c)
    ensures l'.Valid()
    ensures |l'.text| == |l.text| + 1 && l'.cursor == l.cursor + 1
    ensures l'.text[l.cursor] == c
    ensures forall i :: 0 <= i < l.cursor ==> l'.text[i] == l.text[i]
    ensures forall i :: l.cursor <= i < |l.text| ==> l'.text[i + 1] == l.text[i]
  {
    Line(l.text[..l.cursor] + [c] + l.text[l.cursor..], l.cursor + 1)
  }

  /** Backspace: the byte before the cursor is removed and the tail moves one
      place left (src/portable_shell.c:181-187). */
  function RemoveBefore(l: Line): (l': Line)
    requires l.Valid() && l.cursor > 0
    ensures l'.Valid()
    ensures |l'.text| == |l.text| - 1 && l'.cursor == l.cursor - 1
    ensures forall i :: 0 <= i < l.cursor - 1 ==> l'.text[i] == l.text[i]
    ensures forall i :: l.cursor - 1 <= i < |l'.text| ==> l'.text[i] == l.text[i + 1]
  {
    Line(l.text[..l.cursor - 1] + l.text[l.cursor..], l.cursor - 1)
  }

  /** Delete: the byte under the cursor is removed, the tail moves one place
      left and the cursor stays (src/portable_shell.c:290-294). */
  function RemoveAt(l: Line): (l': Line)
    requires l.Valid() && l.cursor < |l.text|
    ensures l'.Valid()
    ensures |l'.text| == |l.text| - 1 && l'.cursor == l.cursor
    ensures forall i :: 0 <= i < l.cursor ==> l'.text[i] == l.text[i]
    ensures forall i :: l.cursor <= i < |l'.text| ==> l'.text[i] == l.text[i + 1]
  {
    Line(l.text[..l.cursor] + l.text[l.cursor + 1..], l.cursor)
  }

  /** Backspace right after typing a byte restores the line. */
  lemma RemoveBeforeUndoesInsert(l: Line, c: char)
    requires l.Valid() && l.HasRoom() && Printable(c)
    ensures RemoveBefore(Insert(l, c)) == l
  {
    var l' := RemoveBefore(Insert(l, c));
    assert l'.text == l.text;
  }

  /** Typing a byte, stepping left over it and pressing Delete restores the
      line, with the cursor where the byte was typed. */
  lemma RemoveAtUndoesInsert(l: Line, c: char)
    requires l.Valid() && l.HasRoom() && Printable(c)
    ensures RemoveAt(Insert(l, c).(cursor := l.cursor)) == l
  {
    var l' := RemoveAt(Insert(l, c).(cursor := l.cursor));
    assert l'.text == l.text;
  }

  /** Inserting at the end of the line appends. */
  lemma InsertAtEndAppends(l: Line, c: char)
    requires l.Valid() && l.HasRoom() && Printable(c) && l.cursor == |l.text|
    ensures Insert(l, c) == Load(l.text + [c])
  {
    assert l.text[..l.cursor] == l.text;
    assert l.text[l.cursor..] == "";
  }
}

=== FILE: parameters.dfy ===
/** Typed parameters and the built-in `get` and `set` commands
    (src/portable_shell.c:563-638). The value a parameter refers to is kept
    in its registry entry. */
module Parameters {
  import opened Wrappers
  import opened Text
  import opened Registry

  /** The four parameter types with their current value. A Float keeps the
      decimal text it was last given; its conversion is not modelled. */
  datatype Value =
    | IntValue(i: int)
    | FloatValue(text: string)
    | StringValue(s: string)
    | BoolValue(b: bool)

  /** A registered parameter: its value and, for a String, `max_size`, the
      size of the caller's character array including the NUL. */
  datatype Param = Param(value: Value, maxSize: nat) {

    /** What the caller's storage can hold: an `int` in range, a string that
        fits its array with the terminator. */
    predicate Valid() {
      match value
      case IntValue(i) => IsInt32(i)
      case StringValue(s) => maxSize >= 1 && |s| <= maxSize - 1
      case _ => true
    }
  }

  predicate SameType(a: Value, b: Value) {
    (a.IntValue? && b.IntValue?) || (a.FloatValue? && b.FloatValue?)
    || (a.StringValue? && b.StringValue?) || (a.BoolValue? && b.BoolValue?)
  }

  /** The strings `set` accepts as true, compared case-sensitively. */
  predicate IsTrueWord(text: string) {
    text == "true" || text == "1" || text == "yes"
  }

  function BoolText(b: bool): string {
    if b then "true" else "false"
  }

  /** What `get` prints after `<name> = `. */
  function Format(v: Value): string {
    match v
    case IntValue(i) => Decimal(i)
    case FloatValue(t) => t
    case StringValue(s) => s
    case BoolValue(b) => BoolText(b)
  }

  /** The store `set` performs: `atoi` for an Int, a `strncpy` cut to
      `max_size - 1` bytes for a String, and the three true-words for a Bool. */
  function Assign(p: Param, text: string): (p': Param)
    requires p.Valid()
    ensures p'.Valid() && p'.maxSize == p.maxSize && SameType(p.value, p'.value)
    ensures p.value.IntValue? ==> p'.value.i == Atoi(text)
    ensures p.value.StringValue? ==>
              && |p'.value.s| == Min(|text|, p.maxSize - 1)
              && p'.value.s == text[..|p'.value.s|]
    ensures p.value.BoolValue? ==> (p'.value.b <==> IsTrueWord(text))
  {
    match p.value
    case IntValue(_) => p.(value := IntValue(Atoi(text)))
    case FloatValue(_) => p.(value := FloatValue(text))
    case StringValue(_) =>
      var n := Min(|text|, p.maxSize - 1);
      p.(value := StringValue(text[..n]))
    case BoolValue(_) => p.(value := BoolValue(IsTrueWord(text)))
  }

  /** Setting a parameter to the text `get` shows for a value of its type
      stores that value again (for an Int, any `int`; for a String, any string
      that fits). */
  lemma AssignFormatRoundTrip(p: Param, v: Value)
    requires p.Valid() && SameType(p.value, v) && Param(v, p.maxSize).Valid()
    ensures Assign(p, Format(v)).value == v
  {
    match v
    case IntValue(i) => AtoiOfDecimal(i);
    case StringValue(s) => assert s[..|s|] == s;
    case BoolValue(b) =>
      assert b ==> IsTrueWord(BoolText(b));
      assert !b ==> BoolText(b) == "false";
      assert "false" != "true" && "false" != "1" && "false" != "yes" by {
        assert "false"[0] != "true"[0] && "false"[0] != "1"[0] && "false"[0] != "yes"[0];
      }
    case FloatValue(_) =>
  }

  predicate AllValid(params: seq<Entry<Param>>) {
    forall i :: 0 <= i < |params| ==> params[i].value.Valid()
  }

  datatype GetResult = GetResult(out: string, status: int)

  /** `ps_cmd_get`: print `<name> = <value>` for the first parameter with the
      name; a usage message or a not-found message otherwise, with status -1. */
  function Get(params: seq<Entry<Param>>, argv: seq<string>): (r: GetResult)
    ensures r.status == 0 <==> |argv| >= 2 && Named(params, argv[1])
    ensures r.status == 0 || r.status == -1
    ensures |argv| < 2 ==> r.out == "Usage: get <parameter>\n"
    ensures |argv| >= 2 && !Named(params, argv[1]) ==> r.out == "Parameter not found: " + argv[1] + "\n"
    ensures r.status == 0 ==> r.out == argv[1] + " = " + Format(Lookup(params, argv[1]).value.value) + "\n"
  {
    if |argv| < 2 then GetResult("Usage: get <parameter>\n", -1)
    else match Lookup(params, argv[1])
      case None => GetResult("Parameter not found: " + argv[1] + "\n", -1)
      case Some(p) => GetResult(argv[1] + " = " + Format(p.value) + "\n", 0)
  }

  datatype SetResult = SetResult(params: seq<Entry<Param>>, out: string, status: int)

  /** `ps_cmd_set`: assign the value text to the first parameter with the
      name and echo `Set <name> = <text>`; with fewer than three arguments or
      an unknown name, print a message, return -1 and change nothing. */
  function Set(params: seq<Entry<Param>>, argv: seq<string>): (r: SetResult)
    requires AllValid(params)
    ensures AllValid(r.params)
    ensures r.status == 0 <==> |argv| >= 3 && Named(params, argv[1])
    ensures r.status == 0 || r.status == -1
    ensures r.status == -1 ==> r.params == params
    ensures |argv| < 3 ==> r.out == "Usage: set <parameter> <value>\n"
    ensures |argv| >= 3 && !Named(params, argv[1]) ==> r.out == "Parameter not found: " + argv[1] + "\n"
    ensures r.status == 0 ==>
              && r.out == "Set " + argv[1] + " = " + argv[2] + "\n"
              && Lookup(r.params, argv[1]) == Some(Assign(Lookup(params, argv[1]).value, argv[2]))
              && (forall n :: n != argv[1] ==> Lookup(r.params, n) == Lookup(params, n))
              && |r.params| == |params|
  {
    if |argv| < 3 then SetResult(params, "Usage: set <parameter> <value>\n", -1)
    else match Lookup(params, argv[1])
      case None => SetResult(params, "Parameter not found: " + argv[1] + "\n", -1)
      case Some(p) =>
        assert p.Valid();
        var p' := Assign(p, argv[2]);
        var params' := Update(params, argv[1], p');
        assert AllValid(params') by {
          forall i | 0 <= i < |params'|
            ensures params'[i].value.Valid()
          {
            assert params'[i] == params[i] || params'[i] == Entry(argv[1], p');
          }
        }
        SetResult(params', "Set " + argv[1] + " = " + argv[2] + "\n", 0)
  }

  /** `set <name> <text>` then `get <name>` prints the value as stored. */
  lemma SetThenGet(params: seq<Entry<Param>>, name: string, text: string)
    requires AllValid(params) && Named(params, name)
    ensures Get(Set(params, ["set", name, text]).params, ["get", name]).out
            == name + " = " + Format(Assign(Lookup(params, name).value, text).value) + "\n"
  {
  }

  /** For an Int parameter, `set <name> <%d of v>` then `get <name>` prints
      `<name> = <%d of v>`. */
  lemma SetThenGetInt(params: seq<Entry<Param>>, name: string, v: int)
    requires AllValid(params) && IsInt32(v)
    requires Lookup(params, name).Some? && Lookup(params, name).value.value.IntValue?
    ensures Get(Set(params, ["set", name, Decimal(v)]).params, ["get", name]).out
            == name + " = " + Decimal(v) + "\n"
  {
    var p := Lookup(params, name).value;
    assert p.Valid();
    AssignFormatRoundTrip(p, IntValue(v));
    SetThenGet(params, name, Decimal(v));
  }
}

=== FILE: registry.dfy ===
/** The singly linked lists behind the command and parameter tables
    (src/portable_shell.c:405-498), as a sequence read head first.
    Registering prepends, so a new entry shadows an older one of the same
    name; lookup and unregistration act on the first entry with the name. */
module Registry {
  import opened Wrappers

  datatype Entry<V> = Entry(name: string, value: V)

  predicate Named<V>(r: seq<Entry<V>>, name: string) {
    exists i :: 0 <= i < |r| && r[i].name == name
  }

  /** Position of the first entry called `name`, or `|r|` when there is none:
      where the `strcmp` walk stops. */
  function IndexOf<V>(r: seq<Entry<V>>, name: string): (k: nat)
    ensures k <= |r|
    ensures forall j :: 0 <= j < k ==> r[j].name != name
    ensures k < |r| ==> r[k].name == name
  {
    if r == [] then 0
    else if r[0].name == name then 0
    else 1 + IndexOf(r[1..], name)
  }

  /** `ps_get_parameter` and the search in `ps_execute_command`. */
  function Lookup<V>(r: seq<Entry<V>>, name: string): (v: Option<V>)
    ensures v.None? <==> !Named(r, name)
    ensures v.Some? ==> exists i :: 0 <= i < |r| && r[i] == Entry(name, v.value)
                                     && forall j :: 0 <= j < i ==> r[j].name != name
  {
    var k := IndexOf(r, name);
    if k < |r| then Some(r[k].value) else None
  }

  /** `ps_register_command` / `ps_register_parameter`: the new entry becomes
      the head of the list. */
  function Register<V>(r: seq<Entry<V>>, name: string, v: V): (r': seq<Entry<V>>)
    ensures |r'| == |r| + 1 && r'[1..] == r
    ensures Lookup(r', name) == Some(v)
    ensures forall n :: n != name ==> Lookup(r', n) == Lookup(r, n)
  {
    var r' := [Entry(name, v)] + r;
    assert r'[1..] == r;
    r'
  }

  /** `ps_unregister_command` / `ps_unregister_parameter`: unlink the first
      entry with the name; status 0 when one was found, -1 otherwise. */
  function Unregister<V>(r: seq<Entry<V>>, name: string): (res: (seq<Entry<V>>, int))
    ensures res.1 == 0 <==> Named(r, name)
    ensures res.1 == 0 || res.1 == -1
    ensures res.1 == -1 ==> res.0 == r
    ensures res.1 == 0 ==> exists k :: 0 <= k < |r| && r[k].name == name
                                        && (forall j :: 0 <= j < k ==> r[j].name != name)
                                        && res.0 == r[..k] + r[k + 1..]
  {
    var k := IndexOf(r, name);
    if k < |r| then (r[..k] + r[k + 1..], 0) else (r, -1)
  }

  /** Writes through the entry that lookup finds, leaving every other entry
      as it was. */
  function Update<V>(r: seq<Entry<V>>, name: string, v: V): (r': seq<Entry<V>>)
    ensures |r'| == |r|
    ensures forall i :: 0 <= i < |r| ==> r'[i].name == r[i].name
    ensures forall i :: 0 <= i < |r| ==> r'[i] == r[i] || r'[i] == Entry(name, v)
    ensures Lookup(r', name) == if Named(r, name) then Some(v) else None
    ensures forall n :: n != name ==> Lookup(r', n) == Lookup(r, n)
  {
    var k := IndexOf(r, name);
    if k < |r| then
      var r' := r[k := Entry(name, v)];
      assert IndexOf(r', name) == k by {
        assert forall j :: 0 <= j < k ==> r'[j] == r[j];
        assert r'[k].name == name;
        IndexOfExact(r', name, k);
      }
      assert forall n :: n != name ==> IndexOf(r', n) == IndexOf(r, n) by {
        forall n | n != name
          ensures IndexOf(r', n) == IndexOf(r, n)
        {
          var m := IndexOf(r, n);
          assert forall j :: 0 <= j < |r| ==> r'[j].name == r[j].name;
          assert m < |r| ==> r'[m].name == n;
          IndexOfExact(r', n, m);
        }
      }
      r'
    else r
  }

  /** The contract of `IndexOf` determines it. */
  lemma IndexOfExact<V>(r: seq<Entry<V>>, name: string, k: nat)
    requires k <= |r|
    requires forall j :: 0 <= j < k ==> r[j].name != name
    requires k < |r| ==> r[k].name == name
    ensures IndexOf(r, name) == k
  {
  }

  /** Unregistering right after registering restores the table exactly: a
      shadowed entry of the same name is visible again. */
  lemma UnregisterUndoesRegister<V>(r: seq<Entry<V>>, name: string, v: V)
    ensures Unregister(Register(r, name, v), name) == (r, 0)
  {
    var r' := Register(r, name, v);
    assert IndexOf(r', name) == 0;
    assert r'[..0] + r'[1..] == r;
  }

  /** With two registrations of one name, lookup sees the newer; after one
      unregistration it sees the older again. */
  lemma ShadowThenExpose<V>(r: seq<Entry<V>>, name: string, older: V, newer: V)
    ensures Lookup(Register(Register(r, name, older), name, newer), name) == Some(newer)
    ensures Lookup(Unregister(Register(Register(r, name, older), name, newer), name).0, name) == Some(older)
  {
    UnregisterUndoesRegister(Register(r, name, older), name, newer);
  }
}

=== FILE: scenarios.dfy ===
/** Whole-shell examples: a parameter round trip through `set` and `get`,
    Bool coercion, command shadowing, and an unknown command typed at the
    prompt. */
module Scenarios {
  import opened Wrappers
  import opened Text
  import opened Registry
  import opened Tokenizer
  import opened History
  import opened LineBuffer
  import opened Parameters
  import opened Vt100
  import opened Shell
  import opened Editor
  import opened CommandLines

  /** `get` and `set` are bound to their built-ins in a fresh shell. */
  lemma GetAndSetBuilt()
    ensures Lookup(Builtins(), "set").Some? && Lookup(Builtins(), "set").value.callback == SetCommand
    ensures Lookup(Builtins(), "get").Some? && Lookup(Builtins(), "get").value.callback == GetCommand
  {
    var b := Builtins();
    assert "edit"[0] != "set"[0] && "edit"[0] != "get"[0] && "set"[0] != "get"[0];
    assert b[1].name == "set" && b[2].name == "get";
    IndexOfExact(b, "set", 1);
    IndexOfExact(b, "get", 2);
  }

  /** A line whose first word names a command runs that command's callback
      with the line's words. */
  lemma RunsCallback(s: Shell, line: string, argv: seq<string>, cb: Callback)
    requires s.Valid() && Args(line) == argv && argv != []
    requires Lookup(s.commands, argv[0]).Some? && Lookup(s.commands, argv[0]).value.callback == cb
    ensures Execute(s, line) == Invoke(s, cb, argv)
  {
  }

  /** The `set` built-in on the shell: the parameters and output of `Set`. */
  lemma InvokeSet(s: Shell, argv: seq<string>)
    requires s.Valid()
    ensures var x := Invoke(s, SetCommand, argv);
            x.shell == s.(params := Set(s.params, argv).params) && x.out == Set(s.params, argv).out
  {
  }

  /** With the built-in table, `set x 10` runs `set` on the three words. */
  lemma SetXTen(s: Shell)
    requires s.Valid() && s.commands == Builtins()
    ensures var x := Execute(s, "set x 10");
            var st := Set(s.params, ["set", "x", "10"]);
            x.shell == s.(params := st.params) && x.out == st.out
  {
    ArgsOfSet();
    GetAndSetBuilt();
    RunsCallback(s, "set x 10", ["set", "x", "10"], SetCommand);
    InvokeSet(s, ["set", "x", "10"]);
  }

  /** With the built-in table, `get x` prints what `get` prints for the
      parameters. */
  lemma GetX(s: Shell)
    requires s.Valid() && s.commands == Builtins()
    ensures Execute(s, "get x").out == Get(s.params, ["get", "x"]).out
  {
    ArgsOfGet();
    GetAndSetBuilt();
    RunsCallback(s, "get x", ["get", "x"], GetCommand);
  }

  /** In a shell with the built-in table and an Int parameter `x`, `set x 10`
      echoes the assignment and `get x` then prints `x = 10`. */
  lemma SetThenGetTenOn(s: Shell)
    requires s.Valid() && s.commands == Builtins()
    requires Lookup(s.params, "x").Some? && Lookup(s.params, "x").value.value.IntValue?
    ensures var x1 := Execute(s, "set x 10");
            x1.out == "Set x = 10\n" && Execute(x1.shell, "get x").out == "x = 10\n"
  {
    SetXTen(s);
    var s1 := Execute(s, "set x 10").shell;
    GetX(s1);
    SetEchoes(s.params);
    GetAfterSetTen(s.params);
  }

  /** An Int parameter `x` registered at 5 in a fresh shell: `set x 10`
      echoes the assignment, and `get x` then prints `x = 10`. */
  lemma SetThenGetTen()
    ensures var s0 := RegisterParameter(Create(None), "x", Param(IntValue(5), 0));
            var x1 := Execute(s0, "set x 10");
            && x1.out == "Set x = 10\n"
            && Execute(x1.shell, "get x").out == "x = 10\n"
  {
    var s0 := RegisterParameter(Create(None), "x", Param(IntValue(5), 0));
    SetThenGetTenOn(s0);
  }

  /** `help`, on any shell where that name still runs the built-in, prints
      the header and then one line per registered command in list order,
      shadowed commands included; nothing changes and the status is 0. */
  lemma HelpPrintsEveryCommand(s: Shell, i: nat)
    requires s.Valid() && i < |s.commands|
    requires Lookup(s.commands, "help").Some? && Lookup(s.commands, "help").value.callback == HelpCommand
    ensures var x := Execute(s, "help");
            x.shell == s && x.status == Returned(0) && x.calls == []
            && x.out == "Available commands:\n" + HelpLines(s.commands[..i]) + HelpLine(s.commands[i])
                        + HelpLines(s.commands[i + 1..])
  {
    HelpRuns(s);
    HelpListsEveryCommand(s.commands, i);
  }

  /** Typing `help` runs the built-in: the listing of the table, status 0,
      nothing changed. */
  lemma HelpRuns(s: Shell)
    requires s.Valid()
    requires Lookup(s.commands, "help").Some? && Lookup(s.commands, "help").value.callback == HelpCommand
    ensures Execute(s, "help") == Exec(s, HelpListing(s.commands), [], Returned(0))
  {
    ArgsOfOneWord("help");
    RunsCallback(s, "help", ["help"], HelpCommand);
  }

  /** With the built-in table, `clear` and `cls` both clear the screen and
      home the cursor, and change nothing. */
  lemma ClearRuns(s: Shell, w: string)
    requires s.Valid() && s.commands == Builtins() && (w == "clear" || w == "cls")
    ensures var x := Execute(s, w);
            x.shell == s && x.status == Returned(0)
            && x.out == ClearScreen(s.config.vt100) + CursorHome(s.config.vt100)
  {
    BuiltinsRegistered();
    ArgsOfOneWord(w);
    RunsCallback(s, w, [w], ClearCommand);
    assert Execute(s, w) == Invoke(s, ClearCommand, [w]);
  }

  /** `status` registered twice: dispatching it runs only the second
      callback. */
  lemma StatusShadowed()
    ensures var s := RegisterCommand(RegisterCommand(Create(None), "status", None, Foreign(1)), "status", None, Foreign(2));
            Execute(s, "status").calls == [Call(Foreign(2), ["status"])]
  {
    DispatchRunsNewest(Create(None), "status", 1, 2);
  }

  /** No built-in is called `frobnicate`. */
  lemma FrobnicateUnknown()
    ensures !Named(Builtins(), Frobnicate)
  {
    var b := Builtins();
    forall i | 0 <= i < |b|
      ensures b[i].name != Frobnicate
    {
      assert b[i].name[0] != 'f';
    }
  }

  /** `frobnicate` is a line the buffer can hold. */
  lemma FrobnicateFits()
    ensures AllPrintable(Frobnicate) && |Frobnicate| < MaxCmdLength
  {
  }

  /** A one-word line naming no command, typed at an empty prompt and
      submitted: `Command not found: <word>`, no callback, the parameters as
      they were and the line cleared. The line is committed to the history
      before it is looked up. */
  lemma UnknownWordTyped(s: Shell, w: seq<Byte>)
    requires s.Valid() && s.line == EmptyLine
    requires AllPrintable(w) && w != [] && |w| < MaxCmdLength
    requires Args(w) == [w] && !Named(s.commands, w)
    ensures var r := Feed(s, w + [EnterKey]);
            && r.shell.line == EmptyLine
            && r.shell.params == s.params
            && r.shell.history == Commit(s.history, w)
            && r.calls == []
            && r.out == Feed(s, w).out + ("\n" + ("Command not found: " + w + "\n") + PromptText(s.config))
  {
    var committed := Record(s.(line := Load(w)), w);
    TypeAndSubmit(s, w);
  }

  /** `frobnicate` typed at an empty prompt of a shell with the built-in
      table and submitted. */
  lemma FrobnicateTyped(s: Shell)
    requires s.Valid() && s.line == EmptyLine && s.commands == Builtins()
    ensures var r := Feed(s, Frobnicate + [EnterKey]);
            && r.shell.line == EmptyLine
            && r.shell.params == s.params
            && r.shell.history == Commit(s.history, Frobnicate)
            && r.calls == []
            && r.out == Feed(s, Frobnicate).out + ("\n" + ("Command not found: " + Frobnicate + "\n") + PromptText(s.config))
  {
    FrobnicateFits();
    ArgsOfFrobnicate();
    FrobnicateUnknown();
    UnknownWordTyped(s, Frobnicate);
  }

  /** In a fresh shell the history afterwards holds `frobnicate` alone. */
  lemma FreshHistoryRecordsFrobnicate()
    ensures Commit(Create(None).history, Frobnicate).entries == [Frobnicate]
  {
    CommitWithRoom(Create(None).history, Frobnicate);
  }
}

=== FILE: shell.dfy ===
/** The shell instance of src/portable_shell.c: its configuration, line,
    history and the two registries; creation with the built-in commands;
    the register/unregister API; prompt and line redraw; and command
    dispatch with the built-ins `help`, `clear`/`cls`, `get`, `set`, `edit`. */
module Shell {
  import opened Wrappers
  import opened Text
  import opened Registry
  import opened Tokenizer
  import opened History
  import opened LineBuffer
  import opened Parameters
  import opened Vt100

  /** What a command name is bound to. Built-ins are modelled; a callback
      supplied by the embedding program is an opaque `Foreign` id. */
  datatype Callback =
    | HelpCommand
    | ClearCommand
    | GetCommand
    | SetCommand
    | EditCommand
    | Foreign(id: nat)

  /** A command entry; `help` may be NULL in the source. */
  datatype Command = Command(help: Option<string>, callback: Callback)

  /** A callback the model hands off: which one, with which arguments. */
  datatype Call = Call(callback: Callback, argv: seq<string>)

  /** The parts of PSConfig the core reads. */
  datatype Config = Config(historySize: nat, vt100: bool, prompt: string)

  /** The configuration a caller passes to `ps_create`; the prompt may be
      NULL. */
  datatype Settings = Settings(historySize: nat, vt100: bool, prompt: Option<string>)

  const DefaultPrompt: string := "$ "

  datatype Shell = Shell(
    config: Config,
    line: Line,
    history: History,
    commands: seq<Entry<Command>>,
    params: seq<Entry<Param>>)
  {
    /** The buffer invariant, the history invariant with every entry a line
        the buffer can hold again, and parameters whose storage holds a
        proper value. */
    predicate Valid() {
      && line.Valid()
      && history.Valid()
      && history.capacity == config.historySize
      && (forall i :: 0 <= i < |history.entries| ==> IsLineText(history.entries[i]))
      && AllValid(params)
    }
  }

  /** The six built-ins as `ps_create` leaves the table: registered in the
      order help, clear, cls, get, set, edit, each prepended, so the last
      one registered is the head. */
  function Builtins(): seq<Entry<Command>> {
    [ Entry("edit", Command(Some("Edit parameters in TUI mode"), EditCommand)),
      Entry("set", Command(Some("Set parameter value"), SetCommand)),
      Entry("get", Command(Some("Get parameter value"), GetCommand)),
      Entry("cls", Command(Some("Clear screen"), ClearCommand)),
      Entry("clear", Command(Some("Clear screen"), ClearCommand)),
      Entry("help", Command(Some("Display available commands"), HelpCommand)) ]
  }

  /** `ps_create`: without settings, history 10, VT100 on and prompt "$ ";
      with settings, a missing prompt becomes "$ ". The line and history
      start empty and the built-ins are registered. */
  function Create(settings: Option<Settings>): (s: Shell)
    ensures s.Valid()
    ensures s.line == EmptyLine && s.history.entries == [] && s.history.pos == 0 && s.params == []
    ensures settings.None? ==> s.config == Config(10, true, DefaultPrompt)
    ensures settings.Some? ==> s.config.historySize == settings.value.historySize
                               && s.config.vt100 == settings.value.vt100
    ensures settings.Some? && settings.value.prompt.Some? ==> s.config.prompt == settings.value.prompt.value
    ensures settings.Some? && settings.value.prompt.None? ==> s.config.prompt == DefaultPrompt
    ensures s.commands == Builtins()
  {
    var config :=
      match settings
      case None => Config(10, true, DefaultPrompt)
      case Some(st) => Config(st.historySize, st.vt100, if st.prompt.Some? then st.prompt.value else DefaultPrompt);
    Shell(config, EmptyLine, Empty(config.historySize), Builtins(), [])
  }

  /** The built-in names differ from one another. */
  lemma BuiltinNamesDistinct()
    ensures "cls" != "edit" && "cls" != "set" && "cls" != "get"
    ensures "clear" != "edit" && "clear" != "set" && "clear" != "get" && "clear" != "cls"
    ensures "help" != "edit" && "help" != "set" && "help" != "get" && "help" != "cls" && "help" != "clear"
  {
    assert "cls"[0] != "edit"[0] && "cls"[0] != "set"[0] && "cls"[0] != "get"[0];
    assert "clear"[0] != "edit"[0] && "clear"[0] != "set"[0] && "clear"[0] != "get"[0];
    assert |"clear"| != |"cls"|;
    assert "help"[0] != "edit"[0] && "help"[0] != "set"[0] && "help"[0] != "get"[0];
    assert "help"[0] != "cls"[0] && "help"[0] != "clear"[0];
  }

  /** `clear` and `cls` are one callback, `help` is found, and the newest
      built-in, `edit`, heads the table. */
  lemma BuiltinsRegistered()
    ensures Lookup(Builtins(), "cls") == Some(Command(Some("Clear screen"), ClearCommand))
    ensures Lookup(Builtins(), "clear") == Some(Command(Some("Clear screen"), ClearCommand))
    ensures Lookup(Builtins(), "help").Some? && Lookup(Builtins(), "help").value.callback == HelpCommand
    ensures Builtins()[0].name == "edit"
  {
    BuiltinNamesDistinct();
    var b := Builtins();
    assert b[3].name == "cls" && b[4].name == "clear" && b[5].name == "help";
    IndexOfExact(b, "cls", 3);
    IndexOfExact(b, "clear", 4);
    IndexOfExact(b, "help", 5);
  }

  // ---------------------------------------------------------------------
  // Registration API

  /** `ps_register_command`: the new command shadows any of the same name. */
  function RegisterCommand(s: Shell, name: string, help: Option<string>, cb: Callback): (s': Shell)
    requires s.Valid()
    ensures s'.Valid()
    ensures s' == s.(commands := s'.commands)
    ensures s'.commands == Register(s.commands, name, Command(help, cb))
    ensures Lookup(s'.commands, name) == Some(Command(help, cb))
    ensures forall n :: n != name ==> Lookup(s'.commands, n) == Lookup(s.commands, n)
  {
    s.(commands := Register(s.commands, name, Command(help, cb)))
  }

  /** `ps_unregister_command`: removes the newest command of that name; 0
      when one existed, -1 otherwise. */
  function UnregisterCommand(s: Shell, name: string): (r: (Shell, int))
    requires s.Valid()
    ensures r.0.Valid()
    ensures r.0 == s.(commands := r.0.commands)
    ensures r.0.commands == Unregister(s.commands, name).0
    ensures r.1 == 0 <==> Named(s.commands, name)
    ensures r.1 == -1 ==> r.0 == s
    ensures |r.0.commands| == |s.commands| - (if r.1 == 0 then 1 else 0)
  {
    var (cs, status) := Unregister(s.commands, name);
    (s.(commands := cs), status)
  }

  /** `ps_register_parameter`; the caller's storage must hold a proper
      value, a String array at least one byte long. */
  function RegisterParameter(s: Shell, name: string, p: Param): (s': Shell)
    requires s.Valid() && p.Valid()
    ensures s'.Valid()
    ensures s' == s.(params := s'.params)
    ensures s'.params == Register(s.params, name, p)
    ensures Lookup(s'.params, name) == Some(p)
    ensures forall n :: n != name ==> Lookup(s'.params, n) == Lookup(s.params, n)
  {
    var ps := Register(s.params, name, p);
    assert AllValid(ps) by {
      forall i | 0 <= i < |ps| ensures ps[i].value.Valid() {
        if i > 0 { assert ps[i] == s.params[i - 1]; }
      }
    }
    s.(params := ps)
  }

  /** `ps_unregister_parameter`. */
  function UnregisterParameter(s: Shell, name: string): (r: (Shell, int))
    requires s.Valid()
    ensures r.0.Valid()
    ensures r.0 == s.(params := r.0.params)
    ensures r.0.params == Unregister(s.params, name).0
    ensures r.1 == 0 <==> Named(s.params, name)
    ensures r.1 == -1 ==> r.0 == s
    ensures |r.0.params| == |s.params| - (if r.1 == 0 then 1 else 0)
  {
    var (ps, status) := Unregister(s.params, name);
    assert AllValid(ps) by {
      forall i | 0 <= i < |ps| ensures ps[i].value.Valid() {
        assert ps[i] in s.params;
      }
    }
    (s.(params := ps), status)
  }

  /** Unregistering a command right after registering it gives back the
      shell, so a command it shadowed is dispatched to again. */
  lemma UnregisterCommandUndoesRegister(s: Shell, name: string, help: Option<string>, cb: Callback)
    requires s.Valid()
    ensures UnregisterCommand(RegisterCommand(s, name, help, cb), name) == (s, 0)
  {
    UnregisterUndoesRegister(s.commands, name, Command(help, cb));
  }

  /** Unregistering a parameter right after registering it gives back the
      shell, so a parameter it shadowed is found again. */
  lemma UnregisterParameterUndoesRegister(s: Shell, name: string, p: Param)
    requires s.Valid() && p.Valid()
    ensures UnregisterParameter(RegisterParameter(s, name, p), name) == (s, 0)
  {
    UnregisterUndoesRegister(s.params, name, p);
  }

  /** `ps_add_to_history` on the shell: the committed line is one the buffer
      held, so every entry can be recalled into the buffer again. */
  function Record(s: Shell, line: string): (s': Shell)
    requires s.Valid() && IsLineText(line)
    ensures s'.Valid()
    ensures s' == s.(history := Commit(s.history, line))
  {
    var h := Commit(s.history, line);
    assert forall i :: 0 <= i < |h.entries| ==> IsLineText(h.entries[i]) by {
      forall i | 0 <= i < |h.entries|
        ensures IsLineText(h.entries[i])
      {
        if h.entries[i] != line {
          var j :| 0 <= j < |s.history.entries| && s.history.entries[j] == h.entries[i];
        }
      }
    }
    s.(history := h)
  }

  // ---------------------------------------------------------------------
  // Output helpers

  /** `ps_print_prompt`: the prompt in green, then colours reset, when VT100
      output is on; the bare prompt otherwise. */
  function PromptText(c: Config): (r: string)
    ensures !c.vt100 ==> r == c.prompt
    ensures c.vt100 ==> |r| > |c.prompt|
  {
    if c.vt100 then Color(true, 32, -1) + c.prompt + Reset(true) else c.prompt
  }

  /** With VT100 output on, the prompt is framed by SGR 32 (green foreground)
      and SGR 0. */
  lemma PromptIsGreen(c: Config)
    requires c.vt100
    ensures exists pre, post ::
              && PromptText(c) == pre + c.prompt + post
              && Decode(pre) == Some(ControlSequence([32], 'm'))
              && Decode(post) == Some(ControlSequence([0], 'm'))
  {
    EnabledEmittersDecode(0, 0, 32, -1);
    assert PromptText(c) == Color(true, 32, -1) + c.prompt + Reset(true);
  }

  /** `ps_redraw_line`: carriage return, erase the line, the prompt (not
      coloured), the line, then the cursor to column |prompt| + cursor. */
  function Redraw(s: Shell): string {
    "\r" + ClearLine(s.config.vt100) + s.config.prompt + s.line.text
      + CursorMove(s.config.vt100, |s.config.prompt| + s.line.cursor)
  }

  /** A redraw shows the prompt followed by the whole line, and with VT100
      output on it ends by placing the terminal cursor at 1-based column
      |prompt| + cursor + 1, over the line's cursor; with VT100 off it is
      the carriage return, prompt and line alone. */
  lemma RedrawPlacesCursor(s: Shell)
    ensures !s.config.vt100 ==> Redraw(s) == "\r" + s.config.prompt + s.line.text
    ensures s.config.vt100 ==> exists erase, place ::
              && Redraw(s) == "\r" + erase + s.config.prompt + s.line.text + place
              && Decode(erase) == Some(ControlSequence([2], 'K'))
              && Decode(place) == Some(ControlSequence([|s.config.prompt| + s.line.cursor + 1], 'G'))
  {
    if s.config.vt100 {
      EnabledEmittersDecode(|s.config.prompt| + s.line.cursor, 0, 0, -1);
    }
  }

  /** One line of `help`: two spaces, the name, and ` - <help>` when there
      is help text. */
  function HelpLine(e: Entry<Command>): string {
    "  " + e.name + (if e.value.help.Some? then " - " + e.value.help.value else "") + "\n"
  }

  function HelpLines(r: seq<Entry<Command>>): string {
    if r == [] then "" else HelpLine(r[0]) + HelpLines(r[1..])
  }

  /** `ps_cmd_help`: a header, then every command walking the list from its
      head. */
  function HelpListing(r: seq<Entry<Command>>): string {
    "Available commands:\n" + HelpLines(r)
  }

  /** `help` lists the most recently registered command first, followed by
      the listing as it was before that registration. */
  lemma HelpListsNewestFirst(r: seq<Entry<Command>>, name: string, c: Command)
    ensures HelpListing(Register(r, name, c)) == "Available commands:\n" + HelpLine(Entry(name, c)) + HelpLines(r)
  {
  }

  lemma {:induction false} HelpLinesCons(r: seq<Entry<Command>>)
    requires r != []
    ensures HelpLines(r) == HelpLine(r[0]) + HelpLines(r[1..])
  {
  }

  lemma {:induction false} PrefixSlices<T>(r: seq<T>, k: nat)
    requires 0 < k <= |r|
    ensures r[..k] != [] && r[..k][0] == r[0]
    ensures r[1..][..k - 1] == r[..k][1..] && r[1..][k - 1..] == r[k..]
  {
  }

  /** The listing of a table is the listing of any prefix followed by the
      listing of the rest. */
  lemma {:induction false} HelpLinesSplit(r: seq<Entry<Command>>, k: nat)
    requires k <= |r|
    ensures HelpLines(r) == HelpLines(r[..k]) + HelpLines(r[k..])
    decreases k
  {
    if k == 0 {
      assert r[..0] == [] && r[0..] == r;
    } else {
      PrefixSlices(r, k);
      HelpLinesSplit(r[1..], k - 1);
      HelpLinesCons(r);
      HelpLinesCons(r[..k]);
      Regroup(HelpLine(r[0]), HelpLines(r[..k][1..]), HelpLines(r[k..]));
    }
  }

  /** Every registered command, shadowed ones included, has its line in the
      listing, after the lines of the commands registered later and before
      those of the commands registered earlier. */
  lemma {:induction false} HelpListsEveryCommand(r: seq<Entry<Command>>, i: nat)
    requires i < |r|
    ensures HelpLines(r) == HelpLines(r[..i]) + HelpLine(r[i]) + HelpLines(r[i + 1..])
  {
    HelpLinesSplit(r, i);
    HelpLinesCons(r[i..]);
    assert r[i..][0] == r[i] && r[i..][1..] == r[i + 1..];
  }

  // ---------------------------------------------------------------------
  // Dispatch

  /** What a dispatch returns: a status code, or the result of a callback
      that is outside the model. */
  datatype Status = Returned(code: int) | Delegated

  datatype Exec = Exec(shell: Shell, out: string, calls: seq<Call>, status: Status)

  /** Runs the callback bound to `argv[0]`. Built-ins print and may change
      parameters; a foreign callback (and `edit` when there are parameters
      to show) is recorded with its arguments. */
  function Invoke(s: Shell, cb: Callback, argv: seq<string>): (e: Exec)
    requires s.Valid()
    ensures e.shell.Valid()
    ensures e.shell == s.(params := e.shell.params)
    ensures cb != SetCommand ==> e.shell == s
    ensures cb.Foreign? ==> e.out == "" && e.calls == [Call(cb, argv)] && e.status == Delegated
    ensures !cb.Foreign? && !(cb == EditCommand && s.params != []) ==> e.calls == [] && e.status.Returned?
    ensures cb == HelpCommand ==> e.out == HelpListing(s.commands) && e.status == Returned(0)
    ensures cb == ClearCommand ==>
              e.out == ClearScreen(s.config.vt100) + CursorHome(s.config.vt100) && e.status == Returned(0)
    ensures cb == GetCommand ==> e.out == Get(s.params, argv).out && e.status == Returned(Get(s.params, argv).status)
    ensures cb == SetCommand ==>
              e.shell.params == Set(s.params, argv).params && e.out == Set(s.params, argv).out
              && e.status == Returned(Set(s.params, argv).status)
    ensures cb == EditCommand && s.params == [] ==> e.out == "No parameters to edit\n" && e.status == Returned(-1)
    ensures cb == EditCommand && s.params != [] ==> e.out == "" && e.calls == [Call(cb, argv)] && e.status == Delegated
  {
    match cb
    case HelpCommand => Exec(s, HelpListing(s.commands), [], Returned(0))
    case ClearCommand => Exec(s, ClearScreen(s.config.vt100) + CursorHome(s.config.vt100), [], Returned(0))
    case GetCommand =>
      var g := Get(s.params, argv);
      Exec(s, g.out, [], Returned(g.status))
    case SetCommand =>
      var st := Set(s.params, argv);
      Exec(s.(params := st.params), st.out, [], Returned(st.status))
    case EditCommand =>
      if s.params == [] then Exec(s, "No parameters to edit\n", [], Returned(-1))
      else Exec(s, "", [Call(cb, argv)], Delegated)
    case Foreign(_) => Exec(s, "", [Call(cb, argv)], Delegated)
  }

  /** `ps_execute_command`: split the line; no tokens means status -1 and no
      output; an unknown first token prints `Command not found: <token>` and
      returns -1; otherwise the newest command of that name runs with the
      (at most 16) tokens. Only parameters can change. */
  function Execute(s: Shell, cmdline: string): (e: Exec)
    requires s.Valid()
    ensures e.shell.Valid()
    ensures e.shell == s.(params := e.shell.params)
    ensures Args(cmdline) == [] ==> e == Exec(s, "", [], Returned(-1))
    ensures Args(cmdline) != [] && !Named(s.commands, Args(cmdline)[0]) ==>
              e == Exec(s, "Command not found: " + Args(cmdline)[0] + "\n", [], Returned(-1))
    ensures Args(cmdline) != [] && Named(s.commands, Args(cmdline)[0]) ==>
              e == Invoke(s, Lookup(s.commands, Args(cmdline)[0]).value.callback, Args(cmdline))
  {
    var argv := Args(cmdline);
    if argv == [] then Exec(s, "", [], Returned(-1))
    else match Lookup(s.commands, argv[0])
      case None => Exec(s, "Command not found: " + argv[0] + "\n", [], Returned(-1))
      case Some(cmd) => Invoke(s, cmd.callback, argv)
  }

  /** With a command registered twice under one name, dispatch runs only the
      newer callback. */
  lemma DispatchRunsNewest(s: Shell, name: string, older: nat, newer: nat)
    requires s.Valid()
    requires forall i :: 0 <= i < |name| ==> IsWordChar(name[i])
    requires name != ""
    ensures var s2 := RegisterCommand(RegisterCommand(s, name, None, Foreign(older)), name, None, Foreign(newer));
            Execute(s2, name).calls == [Call(Foreign(newer), [name])]
  {
    TokensOfPaddedWord("", name);
    assert "" + name == name;
  }
}

=== FILE: text.dfy ===
/** Characters, key codes and the decimal conversions the shell uses:
    `%d` formatting of an `int` and the C library's `atoi`. */
module Text {

  /** One byte of the transport, as a character whose code is below 256. */
  type Byte = c: char | c as int < 0x100 witness '\0'

  // Input key codes (include/portable_shell.h:147-153, and 0x08 / '\n'
  // accepted in src/portable_shell.c:165 and :180).
  const CtrlC: char := '\U{03}'
  const CtrlL: char := '\U{0C}'
  const BackspaceKey: char := '\U{7F}'
  const CtrlH: char := '\U{08}'
  const EnterKey: char := '\r'
  const NewlineKey: char := '\n'
  const TabKey: char := '\t'
  const Esc: char := '\U{1B}'

  /** The BEL byte written by `ps_bell`. */
  const Bel: char := '\U{07}'

  /** The bytes the line editor inserts: 32 <= c < 127. */
  predicate Printable(c: char) {
    ' ' <= c <= '~'
  }

  predicate IsDigit(c: char) {
    '0' <= c <= '9'
  }

  /** `isspace` in the C locale. */
  predicate IsSpace(c: char) {
    c == ' ' || c == '\t' || c == '\n' || c == '\U{0B}' || c == '\U{0C}' || c == '\r'
  }

  predicate AllDigits(s: string) {
    forall i :: 0 <= i < |s| ==> IsDigit(s[i])
  }

  /** Length of the longest prefix of `s` whose characters all satisfy `p`. */
  function Span(s: string, p: char -> bool): (n: nat)
    ensures n <= |s|
    ensures forall i :: 0 <= i < n ==> p(s[i])
    ensures n < |s| ==> !p(s[n])
  {
    if s == [] || !p(s[0]) then 0 else 1 + Span(s[1..], p)
  }

  /** The three facts in `Span`'s contract pin its value down. */
  lemma SpanExact(s: string, p: char -> bool, n: nat)
    requires n <= |s|
    requires forall i :: 0 <= i < n ==> p(s[i])
    requires n < |s| ==> !p(s[n])
    ensures Span(s, p) == n
  {
  }

  // ---------------------------------------------------------------------
  // Decimal formatting (`snprintf("%d")`)

  function DigitChar(d: nat): (c: char)
    requires d < 10
    ensures IsDigit(c)
    ensures c as int - '0' as int == d
  {
    ('0' as int + d) as char
  }

  /** Canonical decimal digits of a natural number. */
  function Digits(n: nat): (r: string)
    ensures |r| >= 1
    ensures AllDigits(r)
    ensures r[0] == '0' <==> n == 0
    ensures r[0] == '0' ==> |r| == 1
  {
    if n < 10 then [DigitChar(n)] else Digits(n / 10) + [DigitChar(n % 10)]
  }

  /** `%d` of an integer: a minus sign for negative values, then the digits. */
  function Decimal(i: int): (r: string)
    ensures |r| >= 1
    ensures i >= 0 ==> r == Digits(i)
    ensures i < 0 ==> r == "-" + Digits(-i)
  {
    if i < 0 then "-" + Digits(-i) else Digits(i)
  }

  /** Value of a string of decimal digits, most significant first. */
  function DigitsValue(s: string): nat
    requires AllDigits(s)
  {
    if s == [] then 0 else DigitsValue(s[..|s| - 1]) * 10 + (s[|s| - 1] as int - '0' as int)
  }

  lemma {:induction false} DigitsValueOfDigits(n: nat)
    ensures DigitsValue(Digits(n)) == n
  {
    if n >= 10 {
      var d := Digits(n);
      assert d[..|d| - 1] == Digits(n / 10);
      DigitsValueOfDigits(n / 10);
    }
  }

  // ---------------------------------------------------------------------
  // atoi

  const Int32Min: int := -0x8000_0000
  const Int32Max: int := 0x7FFF_FFFF
  const LongMin: int := -0x8000_0000_0000_0000
  const LongMax: int := 0x7FFF_FFFF_FFFF_FFFF

  /** A value a 32-bit C `int` can hold. */
  predicate IsInt32(i: int) {
    Int32Min <= i <= Int32Max
  }

  /** `strtol`'s saturation at the bounds of a 64-bit `long`. */
  function ClampLong(x: int): (r: int)
    ensures LongMin <= r <= LongMax
    ensures LongMin <= x <= LongMax ==> r == x
  {
    if x > LongMax then LongMax else if x < LongMin then LongMin else x
  }

  /** Conversion of a value to a 32-bit `int` by two's-complement wrap-around. */
  function WrapInt32(x: int): (r: int)
    ensures IsInt32(r)
    ensures (r - x) % 0x1_0000_0000 == 0
    ensures IsInt32(x) ==> r == x
  {
    (x - Int32Min) % 0x1_0000_0000 + Int32Min
  }

  /** Magnitude of the digit run at the front of `s` (0 when there is none). */
  function LeadingValue(s: string): nat {
    var n := Span(s, IsDigit);
    DigitsValue(s[..n])
  }

  /** `atoi`: skip C white space, take an optional sign, then the longest run of
      digits; input without digits gives 0. The value goes through `strtol`
      (saturating at the `long` bounds) and is then narrowed to `int`. */
  function Atoi(s: string): (v: int)
    ensures IsInt32(v)
  {
    var t := s[Span(s, IsSpace)..];
    var signed := |t| > 0 && (t[0] == '-' || t[0] == '+');
    var negative := |t| > 0 && t[0] == '-';
    var m: int := LeadingValue(if signed then t[1..] else t);
    WrapInt32(ClampLong(if negative then -m else m))
  }

  lemma LeadingValueOfDigits(n: nat)
    ensures LeadingValue(Digits(n)) == n
  {
    var d := Digits(n);
    SpanExact(d, IsDigit, |d|);
    assert d[..|d|] == d;
    DigitsValueOfDigits(n);
  }

  /** `atoi` of a digit run with no white space or sign before it. */
  lemma AtoiUnsigned(t: string)
    requires |t| > 0 && IsDigit(t[0])
    ensures Atoi(t) == WrapInt32(ClampLong(LeadingValue(t)))
  {
    assert !IsSpace(t[0]);
    SpanExact(t, IsSpace, 0);
    assert t[0..] == t;
  }

  /** `atoi` of a minus sign followed by a digit run. */
  lemma AtoiNegative(t: string)
    requires |t| > 0 && IsDigit(t[0])
    ensures Atoi("-" + t) == WrapInt32(ClampLong(-(LeadingValue(t) as int)))
  {
    var s := "-" + t;
    assert !IsSpace(s[0]);
    SpanExact(s, IsSpace, 0);
    assert s[0..] == s && s[1..] == t;
  }

  /** `atoi` of the digits of `n`, with or without a leading minus sign. */
  lemma AtoiOfDigits(n: nat, negative: bool)
    requires if negative then n <= -Int32Min else n <= Int32Max
    ensures Atoi(if negative then "-" + Digits(n) else Digits(n)) == if negative then -(n as int) else n
  {
    LeadingValueOfDigits(n);
    if negative {
      AtoiNegative(Digits(n));
    } else {
      AtoiUnsigned(Digits(n));
    }
  }

  /** Formatting an `int` with `%d` and reading it back with `atoi` is the
      identity: what `get` prints, `set` accepts. */
  lemma AtoiOfDecimal(i: int)
    requires IsInt32(i)
    ensures Atoi(Decimal(i)) == i
  {
    if i < 0 {
      AtoiOfDigits(-i, true);
    } else {
      AtoiOfDigits(i, false);
    }
  }

  /** Input whose first byte after the white space and the optional sign is
      not a digit converts to 0, whatever follows (`abc12`, `-x5`). */
  lemma AtoiWithoutDigits(s: string)
    requires var t := s[Span(s, IsSpace)..];
             var u := if |t| > 0 && (t[0] == '-' || t[0] == '+') then t[1..] else t;
             u == [] || !IsDigit(u[0])
    ensures Atoi(s) == 0
  {
    var t := s[Span(s, IsSpace)..];
    var u := if |t| > 0 && (t[0] == '-' || t[0] == '+') then t[1..] else t;
    SpanExact(u, IsDigit, 0);
    assert u[..0] == "";
  }
}

=== FILE: tokenizer.dfy ===
/** `ps_parse_args` (src/portable_shell.c:346-366): `strtok` with the
    delimiters space and tab, keeping at most `MaxArgs` tokens. */
module Tokenizer {
  import opened Wrappers
  import opened Text

  /** PS_MAX_ARGS (include/portable_shell.h:29). */
  const MaxArgs: nat := 16

  predicate IsDelim(c: char) {
    c == ' ' || c == '\t'
  }

  predicate IsWordChar(c: char) {
    !IsDelim(c)
  }

  /** Every maximal run of non-delimiters, in order: the reference definition. */
  function Tokens(s: string): seq<string>
    decreases |s|
  {
    if s == [] then []
    else if IsDelim(s[0]) then Tokens(s[1..])
    else
      var n := Span(s, IsWordChar);
      [s[..n]] + Tokens(s[n..])
  }

  /** The argument vector a command line is split into. */
  function Args(s: string): (argv: seq<string>)
    ensures |argv| == Min(|Tokens(s)|, MaxArgs)
    ensures argv == Tokens(s)[..|argv|]
  {
    if |Tokens(s)| <= MaxArgs then Tokens(s) else Tokens(s)[..MaxArgs]
  }

  function Concat(ts: seq<string>): string {
    if ts == [] then "" else ts[0] + Concat(ts[1..])
  }

  /** `s` without its spaces and tabs. */
  function Squeeze(s: string): string {
    if s == [] then "" else (if IsDelim(s[0]) then "" else [s[0]]) + Squeeze(s[1..])
  }

  lemma {:induction false} SqueezeAppend(a: string, b: string)
    ensures Squeeze(a + b) == Squeeze(a) + Squeeze(b)
    decreases |a|
  {
    if a != [] {
      assert (a + b)[1..] == a[1..] + b;
      SqueezeAppend(a[1..], b);
    } else {
      assert a + b == b;
    }
  }

  lemma {:induction false} SqueezeWord(w: string)
    requires forall i :: 0 <= i < |w| ==> IsWordChar(w[i])
    ensures Squeeze(w) == w
    decreases |w|
  {
    if w != [] {
      SqueezeWord(w[1..]);
      assert [w[0]] + w[1..] == w;
    }
  }

  /** Tokens are non-empty, hold no delimiter, and together hold exactly the
      non-delimiter characters of the line, in order. */
  lemma {:induction false} TokensPartitionLine(s: string)
    ensures forall i :: 0 <= i < |Tokens(s)| ==> Tokens(s)[i] != ""
    ensures forall i, j :: 0 <= i < |Tokens(s)| && 0 <= j < |Tokens(s)[i]| ==> IsWordChar(Tokens(s)[i][j])
    ensures Concat(Tokens(s)) == Squeeze(s)
    decreases |s|
  {
    if s == [] {
    } else if IsDelim(s[0]) {
      TokensPartitionLine(s[1..]);
    } else {
      var n := Span(s, IsWordChar);
      TokensPartitionLine(s[n..]);
      assert Tokens(s) == [s[..n]] + Tokens(s[n..]);
      assert s == s[..n] + s[n..];
      SqueezeAppend(s[..n], s[n..]);
      SqueezeWord(s[..n]);
      assert Concat(Tokens(s)) == s[..n] + Concat(Tokens(s[n..]));
    }
  }

  /** A line that is one word, possibly padded with delimiters, has that word
      as its only token. */
  lemma {:induction false} TokensOfPaddedWord(pad: string, w: string)
    requires forall i :: 0 <= i < |pad| ==> IsDelim(pad[i])
    requires w != [] && forall i :: 0 <= i < |w| ==> IsWordChar(w[i])
    ensures Tokens(pad + w) == [w]
    decreases |pad|
  {
    if pad == [] {
      assert pad + w == w;
      SpanExact(w, IsWordChar, |w|);
      assert w[..|w|] == w;
      assert w[|w|..] == [];
    } else {
      assert (pad + w)[1..] == pad[1..] + w;
      TokensOfPaddedWord(pad[1..], w);
    }
  }

  /** A word followed by a space is the first token of the line, and the
      rest of the line gives the others. */
  lemma TokensOfWordThenSpace(w: string, rest: string)
    requires w != [] && forall i :: 0 <= i < |w| ==> IsWordChar(w[i])
    ensures Tokens(w + " " + rest) == [w] + Tokens(rest)
  {
    var s := w + " " + rest;
    SpanExact(s, IsWordChar, |w|);
    assert s[..|w|] == w;
    assert s[|w|..][1..] == rest;
  }

  /** A delimiter at the scan position contributes no token. */
  lemma TokensSkipDelim(line: string, argv: seq<string>, i: nat)
    requires i < |line| && IsDelim(line[i])
    requires argv + Tokens(line[i..]) == Tokens(line)
    ensures argv + Tokens(line[i + 1..]) == Tokens(line)
  {
    assert line[i..][1..] == line[i + 1..];
  }

  /** A word at the front is the first token. */
  lemma TokensAtWord(s: string, i: nat, j: nat)
    requires i < j <= |s|
    requires forall k :: i <= k < j ==> IsWordChar(s[k])
    requires j < |s| ==> IsDelim(s[j])
    ensures Tokens(s[i..]) == [s[i..j]] + Tokens(s[j..])
  {
    var t := s[i..];
    SpanExact(t, IsWordChar, j - i);
    assert t[..j - i] == s[i..j];
    assert t[j - i..] == s[j..];
  }

  /** A word at the scan position is the next token. */
  lemma TokensTakeWord(line: string, argv: seq<string>, i: nat, j: nat)
    requires i < j <= |line|
    requires forall k :: i <= k < j ==> IsWordChar(line[k])
    requires j < |line| ==> IsDelim(line[j])
    requires argv + Tokens(line[i..]) == Tokens(line)
    ensures (argv + [line[i..j]]) + Tokens(line[j..]) == Tokens(line)
  {
    TokensAtWord(line, i, j);
    Regroup(argv, [line[i..j]], Tokens(line[j..]));
  }

  /** End of the word that starts at `i`. */
  method WordEnd(line: string, i: nat) returns (j: nat)
    requires i < |line| && IsWordChar(line[i])
    ensures i < j <= |line|
    ensures forall k :: i <= k < j ==> IsWordChar(line[k])
    ensures j < |line| ==> IsDelim(line[j])
  {
    j := i + 1;
    while j < |line| && !IsDelim(line[j])
      invariant i < j <= |line|
      invariant forall k :: i <= k < j ==> IsWordChar(line[k])
      decreases |line| - j
    {
      j := j + 1;
    }
  }

  /** Where the scan stops, the tokens kept are what `Args` keeps. */
  lemma ScanStops(line: string, argv: seq<string>, i: nat)
    requires i <= |line| && |argv| <= MaxArgs
    requires argv + Tokens(line[i..]) == Tokens(line)
    requires i == |line| || |argv| == MaxArgs
    ensures argv == Args(line)
  {
    if i == |line| {
      assert line[i..] == [];
      assert argv + [] == argv;
    } else {
      assert Tokens(line)[..|argv|] == argv;
    }
  }

  /** `ps_parse_args` as a loop over the line, as `strtok` scans it. */
  method ParseArgs(line: string) returns (argv: seq<string>)
    ensures argv == Args(line)
  {
    argv := [];
    var i := 0;
    assert line[0..] == line;
    while i < |line| && |argv| < MaxArgs
      invariant 0 <= i <= |line|
      invariant |argv| <= MaxArgs
      invariant argv + Tokens(line[i..]) == Tokens(line)
      decreases |line| - i
    {
      if IsDelim(line[i]) {
        TokensSkipDelim(line, argv, i);
        i := i + 1;
      } else {
        var j := WordEnd(line, i);
        TokensTakeWord(line, argv, i, j);
        argv := argv + [line[i..j]];
        i := j;
      }
    }
    ScanStops(line, argv, i);
  }
}

=== FILE: vt100.dfy ===
/** The VT100 output primitives of src/vt100.c. Each is a pure function from
    the `vt100_enabled` flag and its arguments to the bytes it writes. Their
    partner is `Decode`, a reader for ECMA-48 control sequences
    (ESC `[` parameters final-byte), which says what a terminal makes of them. */
module Vt100 {
  import opened Wrappers
  import opened Text

  /** A CSI control sequence: numeric parameters and a final byte. */
  datatype ControlSequence = ControlSequence(params: seq<int>, final: char)

  /** Parameters written with `%d` and separated by `;`. */
  function JoinDecimal(ps: seq<int>): string {
    if ps == [] then ""
    else if |ps| == 1 then Decimal(ps[0])
    else Decimal(ps[0]) + ";" + JoinDecimal(ps[1..])
  }

  /** ESC `[` parameters final, as the emitters format it with `snprintf`. */
  function Csi(ps: seq<int>, final: char): string {
    [Esc, '['] + JoinDecimal(ps) + [final]
  }

  /** Final bytes of a control sequence occupy 0x40..0x7E (section 5.4 of ECMA-48). */
  predicate IsFinal(c: char) {
    '@' <= c <= '~'
  }

  /** Reads `;`-separated non-empty digit strings. */
  function ParseFields(b: string): (r: Option<seq<int>>)
    ensures r.Some? ==> |r.value| >= 1 && forall i :: 0 <= i < |r.value| ==> r.value[i] >= 0
    decreases |b|
  {
    var k := Span(b, IsDigit);
    if k == 0 then None
    else if k == |b| then Some([DigitsValue(b)])
    else if b[k] != ';' then None
    else match ParseFields(b[k + 1..])
      case None => None
      case Some(rest) => Some([DigitsValue(b[..k])] + rest)
  }

  /** What a terminal reads from `s` when `s` is exactly one control sequence. */
  function Decode(s: string): (r: Option<ControlSequence>)
    ensures r.Some? ==> |s| >= 3 && s[0] == Esc && s[1] == '[' && r.value.final == s[|s| - 1]
  {
    if |s| < 3 || s[0] != Esc || s[1] != '[' || !IsFinal(s[|s| - 1]) then None
    else
      var body := s[2..|s| - 1];
      if body == "" then Some(ControlSequence([], s[|s| - 1]))
      else match ParseFields(body)
        case None => None
        case Some(ps) => Some(ControlSequence(ps, s[|s| - 1]))
  }

  /** One digit field with nothing after it. */
  lemma ParseFieldsLast(d: string)
    requires d != [] && AllDigits(d)
    ensures ParseFields(d) == Some([DigitsValue(d)])
  {
    SpanExact(d, IsDigit, |d|);
  }

  /** A digit field, a `;`, and the fields after it. */
  lemma ParseFieldsCons(d: string, tail: string, rest: seq<int>)
    requires d != [] && AllDigits(d)
    requires ParseFields(tail) == Some(rest)
    ensures ParseFields(d + ";" + tail) == Some([DigitsValue(d)] + rest)
  {
    var b := d + ";" + tail;
    SpanExact(b, IsDigit, |d|);
    assert b[..|d|] == d;
    assert b[|d| + 1..] == tail;
  }

  lemma {:induction false} ParseJoined(ps: seq<int>)
    requires |ps| >= 1
    requires forall i :: 0 <= i < |ps| ==> ps[i] >= 0
    ensures ParseFields(JoinDecimal(ps)) == Some(ps)
    decreases |ps|
  {
    DigitsValueOfDigits(ps[0]);
    if |ps| == 1 {
      assert JoinDecimal(ps) == Digits(ps[0]);
      ParseFieldsLast(Digits(ps[0]));
      assert ps == [ps[0]];
    } else {
      assert JoinDecimal(ps) == Digits(ps[0]) + ";" + JoinDecimal(ps[1..]);
      ParseJoined(ps[1..]);
      ParseFieldsCons(Digits(ps[0]), JoinDecimal(ps[1..]), ps[1..]);
      assert [ps[0]] + ps[1..] == ps;
    }
  }

  /** Reading back what `Csi` formats gives the parameters and final byte
      that were written. */
  lemma DecodeCsi(ps: seq<int>, final: char)
    requires IsFinal(final)
    requires forall i :: 0 <= i < |ps| ==> ps[i] >= 0
    ensures Decode(Csi(ps, final)) == Some(ControlSequence(ps, final))
  {
    var s := Csi(ps, final);
    assert s[2..|s| - 1] == JoinDecimal(ps);
    if ps != [] {
      ParseJoined(ps);
    }
  }

  // ---------------------------------------------------------------------
  // The emitters. Every one except `Bell` writes nothing when the
  // `vt100_enabled` flag is off.

  /** Erase in display, whole screen. */
  function ClearScreen(vt: bool): (r: string)
    ensures !vt ==> r == ""
  {
    if vt then [Esc] + "[2J" else ""
  }

  /** Erase in line, whole line. */
  function ClearLine(vt: bool): (r: string)
    ensures !vt ==> r == ""
  {
    if vt then [Esc] + "[2K" else ""
  }

  /** Cursor to the top-left corner. */
  function CursorHome(vt: bool): (r: string)
    ensures !vt ==> r == ""
  {
    if vt then [Esc] + "[H" else ""
  }

  /** Cursor to 0-based column `col`, written as the 1-based CHA parameter. */
  function CursorMove(vt: bool, col: int): (r: string)
    ensures !vt ==> r == ""
  {
    if vt then Csi([col + 1], 'G') else ""
  }

  /** Cursor `n` columns to the left. */
  function CursorLeft(vt: bool, n: int): (r: string)
    ensures !vt ==> r == ""
  {
    if vt then Csi([n], 'D') else ""
  }

  /** Cursor `n` columns to the right. */
  function CursorRight(vt: bool, n: int): (r: string)
    ensures !vt ==> r == ""
  {
    if vt then Csi([n], 'C') else ""
  }

  /** Select graphic rendition: foreground `fg`, and background `bg` unless
      `bg` is negative. */
  function Color(vt: bool, fg: int, bg: int): (r: string)
    ensures !vt ==> r == ""
  {
    if !vt then ""
    else if bg >= 0 then Csi([fg, bg], 'm')
    else Csi([fg], 'm')
  }

  /** Select graphic rendition 0: default colours. */
  function Reset(vt: bool): (r: string)
    ensures !vt ==> r == ""
  {
    if vt then [Esc] + "[0m" else ""
  }

  /** The bell is one BEL byte; it takes no `vt100_enabled` flag because it
      ignores it. */
  function Bell(): (r: string)
    ensures |r| == 1 && r[0] == Bel
  {
    [Bel]
  }

  /** With VT100 output on, every emitter writes exactly one control
      sequence, and a terminal reads it as the intended ECMA-48 function:
      ED 2, EL 2, CUP, CHA col+1, CUB n, CUF n, SGR fg;bg / SGR fg, SGR 0. */
  lemma EnabledEmittersDecode(col: int, n: int, fg: int, bg: int)
    requires col >= 0 && n >= 0 && fg >= 0
    ensures Decode(ClearScreen(true)) == Some(ControlSequence([2], 'J'))
    ensures Decode(ClearLine(true)) == Some(ControlSequence([2], 'K'))
    ensures Decode(CursorHome(true)) == Some(ControlSequence([], 'H'))
    ensures Decode(CursorMove(true, col)) == Some(ControlSequence([col + 1], 'G'))
    ensures Decode(CursorLeft(true, n)) == Some(ControlSequence([n], 'D'))
    ensures Decode(CursorRight(true, n)) == Some(ControlSequence([n], 'C'))
    ensures bg >= 0 ==> Decode(Color(true, fg, bg)) == Some(ControlSequence([fg, bg], 'm'))
    ensures bg < 0 ==> Decode(Color(true, fg, bg)) == Some(ControlSequence([fg], 'm'))
    ensures Decode(Reset(true)) == Some(ControlSequence([0], 'm'))
  {
    FixedSequences();
    DecodeCsi([2], 'J');
    DecodeCsi([2], 'K');
    DecodeCsi([], 'H');
    DecodeCsi([col + 1], 'G');
    DecodeCsi([n], 'D');
    DecodeCsi([n], 'C');
    if bg >= 0 {
      DecodeCsi([fg, bg], 'm');
    } else {
      DecodeCsi([fg], 'm');
    }
    DecodeCsi([0], 'm');
  }

  /** The fixed sequences are the general CSI form with constant parameters. */
  lemma FixedSequences()
    ensures ClearScreen(true) == Csi([2], 'J')
    ensures ClearLine(true) == Csi([2], 'K')
    ensures CursorHome(true) == Csi([], 'H')
    ensures Reset(true) == Csi([0], 'm')
  {
    assert Digits(2) == "2";
    assert Digits(0) == "0";
  }
}

=== FILE: wrappers.dfy ===
/** Optional values, standing in for the NULL pointers the shell returns
    when a lookup fails. */
module Wrappers {

  datatype Option<T> = None | Some(value: T)

  function Min(a: int, b: int): (m: int)
    ensures m <= a && m <= b
    ensures m == a || m == b
  {
    if a <= b then a else b
  }

  /** Concatenation regrouped, stated once so that proofs about longer
      sequences can use it without reasoning about their contents. */
  lemma Regroup<T>(a: seq<T>, b: seq<T>, c: seq<T>)
    ensures a + (b + c) == (a + b) + c
  {
  }
}
